=== FILE: README.md ===
# python-file-trace in Dafny

A model of the core of `python-file-trace`, which starts from entry files and follows their imports to find every Python file they need. The model has three stages:

- **Import extraction** (`analyzer.py`, and the standalone extractor `src/python/parse_imports.py`). This turns one file's parse tree into import records and dynamic-import targets.
- **Resolution** (`resolver.py`). This maps an import record to a module file, a package marker `__init__.py`, or a namespace directory. It uses the importing file for relative imports and an ordered list of search roots for absolute ones.
- **Tracing** (`tracer.py` over the records of `types.py`). This is a depth-first traversal. It emits each file once, records every file that imported it, applies the inclusion policy (ignore patterns, standard library, site-packages) and honours an optional depth limit.

How the model represents the program:

- A path is a sequence of canonical components; `[]` is the root.
- The filesystem is a finite map from paths to entries. Each file carries what parsing it yields: the walked AST nodes in walk order, a syntax error, or the fact that it could not be read.
- The trace is a pure state-passing traversal. `Tracer.Context` holds what the tracer reads. `Tracer.TraceState` holds what it writes.
- The resolver and the import extraction reach the traversal as functions in the context. `Tracer.Trace` binds them to `Resolver.ResolveImport` and `Tracer.ImportsOf`.
- The ghost predicate `Tracer.Edge` defines the import graph independently of the traversal. The tracer's contracts are stated against it:
  - every recorded parent link is an edge out of a file whose imports were read;
  - every file without parents is an entry file;
  - without a depth limit, every edge out of a read file is recorded.

Files:

| file | module | models |
|---|---|---|
| `wrappers.dfy` | `Wrappers` | `Option`, and `Attempt`, a call that may raise `ValueError` |
| `paths.dfy` | `Paths` | the `pathlib` and `str` operations the program uses |
| `syntax.dfy` | `Syntax` | the AST nodes the extractors inspect; Python's `repr` of constants |
| `fs.dfy` | `Fs` | the filesystem snapshot |
| `analyzer.dfy` | `Analyzer` | `analyzer.py` |
| `parse_imports.dfy` | `ParseImports` | `src/python/parse_imports.py` |
| `resolver.dfy` | `Resolver` | `resolver.py` |
| `types.dfy` | `Types` | `types.py` |
| `tracer.dfy` | `Tracer` | `tracer.py` |

Facts about the source that the model keeps:

- `_ast_to_str` has no recursion cap on attribute chains; it recurses on the whole chain.
- The dynamic-import detectors look only at the callee and the first positional argument. They do not recognise aliased loaders, a loader imported by name, keyword arguments or the `package` argument.
- The tracer never warns about non-literal dynamic targets. `extract_dynamic_imports` drops them silently.
- Every `/` in the tracer and resolver is pathlib's: a string part holding `/` adds several components, and a part starting with `/` starts again at the root.

## Model

| member | source | states |
|---|---|---|
| Analyzer.PlainImports | src/python_file_trace/analyzer.py:54-62 | `import a, b.c as x` gives one record per alias, in order. Each carries the dotted name (never the `as` name), no names, level 0, and the statement's line. |
| Analyzer.AliasNames | src/python_file_trace/analyzer.py:63-72 | The names of a `from` import are the aliases' imported names, in source order; `*` is kept as a name. |
| Analyzer.AnalyzeSource | src/python_file_trace/analyzer.py:36-74 | A syntax error yields no records. Otherwise there is one record per `import` alias plus one per `from` statement. |
| Analyzer.AnalyzeFile | src/python_file_trace/analyzer.py:18-33 | A file that cannot be read yields no records; a readable one yields what its parse yields. |
| Analyzer.AnalyzeCount | src/python_file_trace/analyzer.py:52-72 | The number of records equals the alias count of the `import` nodes plus the number of `from` nodes. |
| Analyzer.AnalyzeAppend | src/python_file_trace/analyzer.py:52-74 | Extraction distributes over concatenation of walks, so records come out in walk order. |
| Analyzer.PlainImportRecords | src/python_file_trace/analyzer.py:54-62 | A single `import` statement yields exactly its aliases' dotted names as absolute, non-`from` records carrying the statement's line. |
| Analyzer.FromImportRecord | src/python_file_trace/analyzer.py:63-72 | A single `from` statement yields exactly one record. It carries the module name (`""` when absent, as for `from . import x`), the dot level, the imported names in order and the statement's line. |
| Analyzer.DynamicTarget | src/python_file_trace/analyzer.py:96-110 | A node names a dynamic target exactly when two things hold. It calls `__import__` or `.import_module` on any receiver. Its first positional argument is a `str` constant. That constant is the target. |
| Analyzer.ExtractDynamicImports | src/python_file_trace/analyzer.py:89-112 | A syntax error yields no dynamic targets. Otherwise the list is, for every node of the walk, the targets of the nodes before it, then the node's own, then those after it. |
| Analyzer.DynamicNodesAppend | src/python_file_trace/analyzer.py:97-112 | Extraction over two walks one after the other is the two results one after the other, so targets keep walk order and repeats. |
| Analyzer.DynamicNodesOfNode | src/python_file_trace/analyzer.py:97-110 | A single node contributes exactly its own target when it is a loader call with a `str` literal first argument, and nothing otherwise. |
| Analyzer.DynamicMembership | src/python_file_trace/analyzer.py:77-112 | A string is extracted if and only if some walked node is a loader call with that literal as first argument. |
| Analyzer.OnlyLiteralTargets | src/python_file_trace/analyzer.py:100-110 | Every extracted target is the string-literal first argument of some loader call; non-literal arguments are never reported. |
| Syntax.FirstStringArg | src/python_file_trace/analyzer.py:101-103 | A value is present exactly when there is a first positional argument that is a `str` constant, and then it is that constant's text. |
| Syntax.StrRepr | src/python/parse_imports.py:26-27 | The `repr` of a string opens and closes with the same quote, which is `"` exactly when the text has a `'` and no `"`. Read back as a Python literal, it gives the text again, so no quote, newline or carriage return appears unescaped. |
| Syntax.EscapeAllReadsBack | src/python/parse_imports.py:26-27 | Decoding the escaped body of a text, as a Python literal with the same quote, gives the text back. So every escape `repr` writes, `\xNN` included, is undone. |
| ParseImports.ChainRendering | src/python/parse_imports.py:20-25 | The fallback rendering of an attribute chain `a.b.c` is its name and attribute names joined by dots, at any depth. |
| ParseImports.Describe | src/python/parse_imports.py:90-102 | A loader call with a constant first argument reports that constant as the module. Any other call reports a null module and an expression. The expression is null exactly when there are no positional arguments, and otherwise it is the fallback rendering of the first argument. The loader kind and the line are kept. |
| ParseImports.ExtractDynamicImport | src/python/parse_imports.py:86-123 | A call is reported exactly when its callee is the bare name `__import__` (kind builtin) or `importlib.import_module` on the bare name `importlib` (kind importlib). What is reported is the description of that loader kind, arguments and line. |
| ParseImports.AliasEntries | src/python/parse_imports.py:54-60 | An `import` statement gives one entry per alias, in order, keeping the `as` name and the line. |
| ParseImports.NamePairs | src/python/parse_imports.py:64-69 | A `from` statement's names are kept in order, each with its `as` name. |
| ParseImports.ParseImportsOf | src/python/parse_imports.py:33-83 | A syntax error gives three empty lists and exactly one `"syntax"` error. The error carries the parser's message and line, or line 0 when the parser has none. A successful parse reports no errors, and its `imports` and `fromImports` lists agree with the tracer's analyzer on the same walk: the same plain module names, and the same `from` statements with module, names, dot count and line, in the same order. For each walked node, each of the three lists is the entries of the nodes before it, then the node's own, then those after it. |
| ParseImports.PlainEntriesAppend | src/python/parse_imports.py:54-60 | The `"imports"` list of two walks one after the other is the two lists one after the other, so entries keep walk order. |
| ParseImports.PlainEntriesOfNode | src/python/parse_imports.py:54-60 | An `import` statement gives one entry per alias, in order, each with the dotted name, the `as` name and the statement's line. Any other node gives none. |
| ParseImports.FromEntriesAppend | src/python/parse_imports.py:62-74 | `"fromImports"` extraction distributes over concatenation of walks, so entries come out in walk order. |
| ParseImports.FromEntriesOfNode | src/python/parse_imports.py:62-74 | A `from` statement gives exactly one entry: the module (`""` when absent), every name with its `as` name in order, the dot count and the line. Any other node gives none. |
| ParseImports.FromImportsAgree | src/python/parse_imports.py:62-74 | This extractor and the tracer's analyzer report the same `from` statements, with the same module, imported names, dot count and line, in the same order, for every walk. |
| ParseImports.PlainImportsAgree | src/python/parse_imports.py:54-60 | This extractor and the tracer's analyzer report the same plain-`import` module names, in the same order, for every walk. |
| ParseImports.DynamicEntriesAppend | src/python/parse_imports.py:76-83 | The `"dynamicImports"` list of two walks one after the other is the two lists one after the other, so entries keep walk order. |
| ParseImports.DynamicEntriesOfNode | src/python/parse_imports.py:76-83 | A call of bare `__import__` gives one `builtin` entry, and a call of `importlib.import_module` one `importlib` entry, each described from its arguments and line. Every other node gives none. |
| ParseImports.LiteralTargetsExtracted | src/python/parse_imports.py:105-114 | Every `str`-literal dynamic target this extractor reports is also a dynamic target of the tracer's analyzer. |
| ParseImports.ReceiverDiffers | src/python/parse_imports.py:108 | The converse fails: `loader.import_module("plugins")` is followed by the analyzer but not reported here. |
| Paths.Components | src/python_file_trace/resolver.py:97 | pathlib's parse of one string part gives well-formed components. A plain name is exactly one component, and the empty string none. |
| Paths.Child | src/python_file_trace/resolver.py:97 | `p / part` appends the components of the part, so the result lies under `p`. A part starting with `/` gives the part's own path instead. A plain name adds exactly one component. |
| Paths.Join | src/python_file_trace/resolver.py:94-97 | The loop `current = current / part` stays under the start when no part starts with `/`. When every part is a plain name, each part becomes exactly one more component. |
| Paths.AscendDropsComponents | src/python_file_trace/resolver.py:90-91 | Taking `.parent` n times drops the last n components, stopping at the root. |
| Paths.JoinSplit | src/python_file_trace/resolver.py:95 | Joining the pieces of `module.split(".")` with dots gives back the module name. |
| Paths.SplitJoin | src/python_file_trace/resolver.py:119 | Splitting a dot-join of dot-free pieces gives back the pieces. |
| Paths.WithPySuffix | src/python_file_trace/resolver.py:151 | `with_suffix(".py")` raises exactly when the path has an empty name (the root). Otherwise it stays in the same directory and yields a name whose suffix is `.py`. |
| Paths.Suffix | src/python_file_trace/tracer.py:179 | A suffix is empty, or it is a final dot-part of the name that begins with its only dot and is not the whole name. |
| Paths.RenderRoundTrip | src/python_file_trace/tracer.py:138 | `str(path)` of a canonical path starts with `/` and reads back to the path, so string keys and paths are interchangeable. |
| Paths.RenderRelativeRoundTrip | src/python_file_trace/types.py:42-43 | `str()` of a relative path never starts with `/` and reads back to its components. |
| Paths.Absolutize | src/python_file_trace/tracer.py:63-67 | An absolute argument is kept. A relative one lies under the working directory unless one of its parts starts with `/`; relative plain components are appended to the working directory. |
| Types.FileReason.AddParent | src/python_file_trace/types.py:24-26 | `add_parent` adds the parent and changes no other parent, the type, the ignored flag or the module name. |
| Types.NewReason | src/python_file_trace/types.py:16-22 | A reason starts with no parents. |
| Types.AddParentCommutes | src/python_file_trace/types.py:24-26 | Adding parents is order-independent and idempotent. |
| Types.AddKnownParent | src/python_file_trace/types.py:24-26 | Adding a parent that is already recorded changes nothing. |
| Types.RelativeFileList | src/python_file_trace/types.py:37-46 | Every traced file contributes its entry, and every entry comes from a traced file. |
| Types.RelativeFormRoundTrip | src/python_file_trace/types.py:40-45 | Each entry names its file. A path under the base reads back against the base; any other path reads back as an absolute string. |
| Types.RelativeFormInjective | src/python_file_trace/types.py:40-45 | Two different files never share an entry of the relative list. |
| Types.RelativeFileListSize | src/python_file_trace/types.py:37-46 | The relative list has exactly one entry per traced file. |
| Resolver.FindModuleFile | src/python_file_trace/resolver.py:136-165 | A result is an existing entry: the sibling `<name>.py`, the package marker or the directory itself. Nothing is found exactly when none of the three exists. |
| Resolver.FindModuleFileAgrees | src/python_file_trace/resolver.py:150-165 | The code as written raises exactly for a path with an empty name. Otherwise it returns what the corrected lookup returns. |
| Resolver.FindModuleFilePrecedence | src/python_file_trace/resolver.py:150-163 | A module file beats a package marker, and a package marker beats a bare (namespace) directory. |
| Resolver.ModulePath | src/python_file_trace/resolver.py:94-97 | The probed path lies under the start directory unless a dotted part starts with `/`. |
| Resolver.SlashedModuleName | src/python_file_trace/resolver.py:94-97 | A module name holding `/` is parsed by pathlib: `pkg/mod` under the root `/b` finds `/b/pkg/mod.py`. |
| Resolver.AbsolutePartRestarts | src/python_file_trace/resolver.py:94-97 | A dotted part starting with `/` leaves the start directory: `/etc` under `/b` probes `/etc`. |
| Resolver.ModulePathSegments | src/python_file_trace/resolver.py:94-97 | The appended components are exactly the dotted parts of the module name, in order. |
| Resolver.EmptyModulePath | src/python_file_trace/resolver.py:94 | An empty module name probes the start directory itself. |
| Resolver.RelativeStartDrops | src/python_file_trace/resolver.py:86-91 | For a deep enough file, a relative import of level n starts at the file's path with its last n components removed. |
| Resolver.LevelOneIsSameDirectory | src/python_file_trace/resolver.py:87-91 | Level 1 starts in the importing file's own directory. |
| Resolver.ResolveRelative | src/python_file_trace/resolver.py:72-99 | A relative import resolves only to existing entries. |
| Resolver.RootRelativeImportRaises | src/python_file_trace/resolver.py:151 | For `/a.py` containing `from . import x`, the code as written raises `ValueError`. The corrected lookup finds the root directory. |
| Resolver.Lookups | src/python_file_trace/resolver.py:121-131 | There is one answer per search root, in search order. A root that does not exist contributes nothing, and every answer found is an existing entry. |
| Resolver.ResolveAbsolute | src/python_file_trace/resolver.py:102-133 | Nothing is found exactly when every root yields nothing. Otherwise the answer is the first root's hit, with every earlier root yielding nothing. |
| Resolver.LaterRootsIgnored | src/python_file_trace/resolver.py:129-131 | Once some root yields a hit, roots appended after the list do not change the answer. |
| Resolver.ResolveImport | src/python_file_trace/resolver.py:168-187 | A positive level resolves relatively and never consults the search roots; level 0 resolves against the roots. Every answer exists. |
| Resolver.IsUnderRoots | src/python_file_trace/resolver.py:42-54 | True exactly when some root is a component-wise ancestor of the path. |
| Tracer.IgnoredBySomePattern | src/python_file_trace/tracer.py:97-105 | The pattern list ignores a path exactly when one of its patterns matches the path string or the file name. |
| Tracer.ShouldIgnore | src/python_file_trace/tracer.py:97-105 | The loop answers true exactly when some pattern matches the full path string or the name. |
| Tracer.ShouldInclude | src/python_file_trace/tracer.py:107-120 | An ignore match excludes. Otherwise a standard-library path follows `include_stdlib`, a site-packages path follows `include_site_packages`, and anything else is included. |
| Tracer.DefaultPolicy | src/python_file_trace/types.py:49-57 | Under the default options, a file is included exactly when it is not under a standard-library root. |
| Tracer.IgnoreWins | src/python_file_trace/tracer.py:109-110 | A pattern matching the file name excludes the file whatever its location and the switches. |
| Tracer.BuildSearchPaths | src/python_file_trace/tracer.py:79-95 | The list starts with the base, followed by `base/src` when that is a directory, and has no duplicates. It contains exactly these and the existing directories among the non-empty `sys.path` entries. Those come after the first one or two, in the order of their first occurrence in `sys.path`. |
| Tracer.DynamicInfos | src/python_file_trace/tracer.py:197-209 | Each dynamic target becomes an absolute, non-`from` import of that name with no names and line 0, in order. |
| Tracer.TargetsAreFiles | src/python_file_trace/tracer.py:237-262 | When the resolver only answers existing paths, every file one import leads to is an existing file. |
| Tracer.UnresolvedWarningReadsBack | src/python_file_trace/tracer.py:227-233 | The warning quotes the module name and names the file after the quote. For an absolute import the quoted text is the module name. For a relative one whose module does not start with a dot, the quoted text is exactly `level` dots followed by the module name. |
| Tracer.RelinkKeeps | src/python_file_trace/tracer.py:146-162 | Revisiting a processed file, or recording an excluded one, keeps the bookkeeping consistent and loses no earlier record. |
| Tracer.RelinkSound | src/python_file_trace/tracer.py:146-162 | Recording a parent link along an import edge keeps every link justified by the import graph. |
| Tracer.AdmitKeeps | src/python_file_trace/tracer.py:164-176 | Admitting an included, unprocessed file keeps the bookkeeping consistent. Such a file has no earlier reason. |
| Tracer.AdmitExpanded | src/python_file_trace/tracer.py:175-181 | Marking the file processed before recursing queues each Python file for reading at most once. |
| Tracer.AdmitSound | src/python_file_trace/tracer.py:164-176 | Admitting along an import edge, or as an entry file, keeps the trace sound. |
| Tracer.ExpandKeeps | src/python_file_trace/tracer.py:179-182 | Reading a newly admitted file's imports keeps what admission established. Without a depth limit, it leaves that file's imports all recorded. |
| Tracer.EmitFile | src/python_file_trace/tracer.py:122-182 | `_emit_file` has these outcomes:<br>• Beyond the depth limit, nothing changes.<br>• A processed file only gains the parent.<br>• An excluded file is recorded as ignored with the parent and is not listed.<br>• An included file is listed and processed; its first reason keeps the given type and module name.<br>Nothing recorded is lost, no new file other than this one is labelled initial, and every new link follows an import edge. |
| Tracer.AdmitFile | src/python_file_trace/tracer.py:164-182 | An included, unprocessed file is listed and processed with a fresh reason of the given type and module name, linked to its parent. |
| Tracer.ProcessImports | src/python_file_trace/tracer.py:184-211 | The file's static imports are processed in order, then the dynamic ones when enabled. Without a depth limit, every import edge out of the file is recorded afterwards. |
| Tracer.ProcessImport | src/python_file_trace/tracer.py:213-270 | An unresolved import only appends the warning naming the dotted module and the importing file. Otherwise:<br>• Within the depth limit, every file the import leads to is linked to the importing file.<br>• A new primary target is labelled package exactly when it is an `__init__.py`, and carries the import's module name.<br>• A directory without `__init__.py` changes nothing and warns nothing, unless names are imported from it. |
| Tracer.ProcessResolved | src/python_file_trace/tracer.py:237-270 | A resolved import emits its primary file, then, for a `from` import with names, the submodules it names. Within the depth limit, all of them are linked. |
| Tracer.EmitPrimary | src/python_file_trace/tracer.py:237-262 | A directory contributes its `__init__.py` only when that exists, else nothing. Any other resolved path is emitted itself. The target is linked to the importing file, labelled by its name, with the import's module name. |
| Tracer.EmitSubmodules | src/python_file_trace/tracer.py:300-318 | For one imported name other than `*` and within the depth limit, `<dir>/<name>.py` and `<dir>/<name>/__init__.py` are each linked when they exist, and nothing changes when neither exists. A new `<name>.py` is labelled import, and a new `__init__.py` package (when no `<name>.py` exists), each with module name `<module>.<name>`, or `<name>` for an empty module. |
| Tracer.EmitIfFile | src/python_file_trace/tracer.py:302-318 | A probed path that is not a file leaves the state unchanged. Within the depth limit, a file is linked to the importing file, and when it is new it gets the given label and module name. Existing links persist. |
| Tracer.ResolveFromImports | src/python_file_trace/tracer.py:272-318 | A resolved plain module file (not `__init__.py`) contributes nothing, and neither does a package in which no imported name exists. In a package directory, every existing submodule file and subpackage marker named by the import is linked to the importing file. |
| Tracer.EmitNames | src/python_file_trace/tracer.py:296-318 | The names are visited in order, skipping `*`. When no name stands for an existing file nothing changes; otherwise every existing submodule file and subpackage marker is linked. |
| Tracer.EntryStep | src/python_file_trace/tracer.py:69-70 | Emitting the next entry file extends the loop's facts:<br>• entries that are files are recorded;<br>• initial files are exactly entries;<br>• the trace stays sound. |
| Tracer.EmitEntries | src/python_file_trace/tracer.py:62-70 | After the loop, every entry that is a file is recorded (unless the depth limit is negative), and every file labelled initial is one of the entries. |
| Tracer.TraceContextResolvesIntoFs | src/python_file_trace/tracer.py:221-225 | The resolver the tracer calls answers only with existing paths. |
| Tracer.RecordedAreFiles | src/python_file_trace/tracer.py:69-70 | Every recorded path, ignored or not, is an existing file. |
| Tracer.AllEdgesRecorded | src/python_file_trace/tracer.py:179-182 | When every read file has its imports recorded, every import edge out of a read file is a parent link. |
| Tracer.TraceIn | src/python_file_trace/tracer.py:62-70 | After tracing the entries:<br>• the file list is exactly the reasons not flagged ignored, which are exactly the included ones;<br>• every Python file in the list had its imports read exactly once;<br>• every file without parents is an entry;<br>• every parent link is an import edge;<br>• without a depth limit, every import edge out of a read file is recorded;<br>• every warning reports an import of a read file that resolves to nothing. |
| Tracer.Trace | src/python_file_trace/tracer.py:43-77 | The result's base is the option made absolute, or the working directory. The search list is the one `_build_search_paths` builds from it, with its order. The result carries the file list, reasons, warnings and closure guarantees of `TraceIn` for the tracer's own resolver and extractor. |

## Left out

- `cli.py` (argument parsing, output formatting, exit codes) is not part of this model.
- `get_stdlib_paths` and `get_site_packages_paths` (`sysconfig`, `site`) are not modelled. Their results, the working directory and `sys.path` are inputs, given as `Tracer.Environment`.
- `get_package_files` is not modelled; nothing in the traversal calls it.
- The `__main__` block of `parse_imports.py` is not modelled: its JSON encoding, stdin reading and `get_python_env`.
- `ast.parse` and `ast.walk` are not modelled. A file's content is given as the nodes of its walk, a syntax error, or a read failure.
- `_ast_to_str` is modelled in its fallback branch only. The `ast.unparse` branch renders Python syntax in general and is out of scope.
- `fnmatch.fnmatch` is not modelled. It is the parameter `matches` of the context, and nothing is assumed about it.
- `Path.resolve()` is the identity on canonical paths. Symbolic links, `..` components and text encodings are not modelled.
- `resolve_absolute_import` with `search_paths=None` (falling back to `sys.path`) is not modelled, because the tracer always passes its own list.
- `Tracer.TraceIn`: Python's recursion limit is not modelled. Each level of nesting takes three frames (`_process_imports`, `_process_import`, `_emit_file`). A chain of first visits a few hundred files deep raises `RecursionError` out of `trace()`, while the model's traversal, and its promise that every edge is recorded without a depth limit, has no such bound.
- `Tracer.ProcessImports`: filesystem queries cannot fail in the model. In the source, the dynamic-import loop runs inside `except (OSError, UnicodeDecodeError): pass` (tracer.py:198-211). So an `OSError` raised anywhere in the traversal below it, such as a `PermissionError` from `is_file()`, silently skips the file's remaining dynamic imports. The model processes them all.
- `Tracer.ProcessImports`: the tracer reads the file twice, once for static and once for dynamic imports. The model reads one snapshot, so a file that changes between the two reads is not covered.
- `Tracer.EmitFile`: the depth counter `_current_depth` is a parameter. It is incremented around `_process_imports` exactly as the counter is, so only the mutable field is left out.
- `Tracer.TraceIn`: without a depth limit every edge out of a read file is recorded. With a limit, only linking up to that depth is stated; no claim is made about which edges are cut off.
- `Tracer.TraceState.expanded` is not a field of the source. It lists the files whose imports were read, and states that this happens at most once per file.
- `Syntax.StrRepr`: characters above U+00FF are written as they are. Python's Unicode database decides which of them `repr` escapes as `\uNNNN` or `\UNNNNNNNN`, and it is not modelled.
- `Tracer.Trace`: the trace uses the corrected module-file lookup of the finding below. For a file `/a.py` with `from . import x`, the source raises `ValueError` and aborts, and the model goes on.
- `Tracer.Trace`: every warning is stated to be justified by an unresolved import. The converse, that every unresolved import of a read file is warned about, is not stated.
- `Tracer.ResolveFromImports`: the label and module name of each submodule target are not stated. Reading an earlier name's file can record the same file first, under another label.
- `Tracer.EmitSubmodules`: the package label of a new `__init__.py` is stated only when `<name>.py` does not exist. Otherwise reading `<name>.py` may record the marker first.
- `FileType.DATA` is declared but never produced, and nothing in the model produces it.
- `Types.NewReason`: the source's dataclass defaults (`ignored=False`, `module_name=None`) are not a separate member. Every construction in `tracer.py` passes the type and module name, and the model does the same.

## Findings

| source | as written | input that shows it | evidently intended | confidence | as-written member | corrected member |
|---|---|---|---|---|---|---|
| src/python_file_trace/resolver.py:151 | `_find_module_file` probes `path.with_suffix(".py")` on every path, and `with_suffix` raises `ValueError` for the root, whose name is empty | A file `/a.py` containing `from . import x`: the relative import starts at `/` with an empty module name, so the lookup is asked about the root and raises, aborting the trace | Skip the `<name>.py` probe for a path without a name, and go on to the package marker and the directory | not executed | Resolver.FindModuleFileAsWritten, Resolver.ResolveRelativeAsWritten (shown by Resolver.RootRelativeImportRaises) | Resolver.FindModuleFile, Resolver.ResolveRelative |

=== FILE: analyzer.dfy ===
/** Import extraction used by the tracer (`analyze_source`, `analyze_file`, `extract_dynamic_imports`). */
module Analyzer {
  import opened Wrappers
  import opened Syntax
  import opened Fs

  /** One import statement; `level` is 0 for an absolute import. */
  datatype ImportInfo = ImportInfo(moduleName: string, names: seq<string>, isFromImport: bool, level: nat, lineno: int)

  /** One record per alias of `import a, b.c as x`, keeping the dotted name and dropping the `as` name. */
  function PlainImports(aliases: seq<Alias>, lineno: int): (r: seq<ImportInfo>)
    ensures |r| == |aliases|
    ensures forall k :: 0 <= k < |r| ==> r[k] == ImportInfo(aliases[k].name, [], false, 0, lineno)
    decreases |aliases|
  {
    if |aliases| == 0 then []
    else [ImportInfo(aliases[0].name, [], false, 0, lineno)] + PlainImports(aliases[1..], lineno)
  }

  /** The imported names of `from m import a, b as y, *`, in source order. */
  function AliasNames(aliases: seq<Alias>): (r: seq<string>)
    ensures |r| == |aliases|
    ensures forall k :: 0 <= k < |r| ==> r[k] == aliases[k].name
    decreases |aliases|
  {
    if |aliases| == 0 then [] else [aliases[0].name] + AliasNames(aliases[1..])
  }

  /** The records contributed by one walked node. */
  function NodeImports(n: Node): seq<ImportInfo> {
    match n
    case ImportNode(aliases, lineno) => PlainImports(aliases, lineno)
    case ImportFromNode(m, aliases, level, lineno) =>
      [ImportInfo(m.GetOr(""), AliasNames(aliases), true, level, lineno)]
    case _ => []
  }

  /** The number of records a node sequence yields: one per `import` alias, one per `from` statement. */
  function ImportCount(nodes: seq<Node>): nat
    decreases |nodes|
  {
    if |nodes| == 0 then 0
    else
      var n := nodes[0];
      (if n.ImportNode? then |n.names| else if n.ImportFromNode? then 1 else 0) + ImportCount(nodes[1..])
  }

  /** The loop of `analyze_source` over the walked nodes. */
  function AnalyzeNodes(nodes: seq<Node>): seq<ImportInfo>
    decreases |nodes|
  {
    if |nodes| == 0 then [] else NodeImports(nodes[0]) + AnalyzeNodes(nodes[1..])
  }

  /** `analyze_source`: a syntax error gives no imports. */
  function AnalyzeSource(tree: ParseOutcome): (r: seq<ImportInfo>)
    ensures tree.SyntaxError? ==> r == []
    ensures tree.Parsed? ==> |r| == ImportCount(tree.nodes)
  {
    match tree
    case SyntaxError(_, _) => []
    case Parsed(nodes) =>
      AnalyzeCount(nodes);
      AnalyzeNodes(nodes)
  }

  /** `analyze_file`: a file that cannot be read gives no imports. */
  function AnalyzeFile(text: FileText): (r: seq<ImportInfo>)
    ensures text.Unreadable? ==> r == []
    ensures text.Readable? ==> r == AnalyzeSource(text.tree)
  {
    match text
    case Unreadable => []
    case Readable(tree) => AnalyzeSource(tree)
  }

  /** The output length is the alias count of the `import` nodes plus the number of `from` nodes. */
  lemma {:induction false} AnalyzeCount(nodes: seq<Node>)
    ensures |AnalyzeNodes(nodes)| == ImportCount(nodes)
    decreases |nodes|
  {
    if |nodes| > 0 {
      AnalyzeCount(nodes[1..]);
    }
  }

  /** Extraction distributes over concatenation of walks, so output order is walk order. */
  lemma {:induction false} AnalyzeAppend(a: seq<Node>, b: seq<Node>)
    ensures AnalyzeNodes(a + b) == AnalyzeNodes(a) + AnalyzeNodes(b)
    decreases |a|
  {
    if |a| > 0 {
      var ab := a + b;
      var head := NodeImports(a[0]);
      assert ab[0] == a[0];
      assert ab[1..] == a[1..] + b;
      assert AnalyzeNodes(ab) == NodeImports(ab[0]) + AnalyzeNodes(ab[1..]);
      assert AnalyzeNodes(a) == head + AnalyzeNodes(a[1..]);
      AnalyzeAppend(a[1..], b);
      var x, y := AnalyzeNodes(a[1..]), AnalyzeNodes(b);
      assert AnalyzeNodes(ab) == head + (x + y);
      ConcatAssoc(head, x, y);
    } else {
      assert a + b == b;
    }
  }

  /** A sequence is its prefix, its `k`-th element and its suffix. */
  lemma SplitAround<T>(s: seq<T>, k: nat)
    requires k < |s|
    ensures s == s[..k] + ([s[k]] + s[k + 1..])
  {
  }

  /** Concatenation regroups freely. */
  lemma ConcatAssoc<T>(a: seq<T>, b: seq<T>, c: seq<T>)
    ensures a + (b + c) == (a + b) + c
  {
  }

  /** An `import a, b.c as x` statement yields one record per alias, in order, named by the dotted name. */
  lemma PlainImportRecords(aliases: seq<Alias>, lineno: int)
    ensures var r := AnalyzeNodes([ImportNode(aliases, lineno)]);
      |r| == |aliases|
      && forall k :: 0 <= k < |r| ==>
        r[k].moduleName == aliases[k].name && r[k].names == [] && !r[k].isFromImport && r[k].level == 0 && r[k].lineno == lineno
  {
    assert AnalyzeNodes([ImportNode(aliases, lineno)]) == PlainImports(aliases, lineno) + AnalyzeNodes([]);
  }

  /** A `from M import n1, n2` statement yields exactly one record carrying the names in order and the dot count. */
  lemma FromImportRecord(m: Option<string>, aliases: seq<Alias>, level: nat, lineno: int)
    ensures var r := AnalyzeNodes([ImportFromNode(m, aliases, level, lineno)]);
      |r| == 1 && r[0].isFromImport && r[0].level == level && r[0].lineno == lineno
      && (m.None? ==> r[0].moduleName == "") && (m.Some? ==> r[0].moduleName == m.value)
      && |r[0].names| == |aliases| && forall k :: 0 <= k < |aliases| ==> r[0].names[k] == aliases[k].name
  {
    assert AnalyzeNodes([ImportFromNode(m, aliases, level, lineno)])
      == [ImportInfo(m.GetOr(""), AliasNames(aliases), true, level, lineno)] + AnalyzeNodes([]);
  }

  /** The callee shapes `extract_dynamic_imports` accepts: the bare name `__import__`, or `.import_module` on any receiver. */
  predicate IsDynamicLoader(func: Expr) {
    func == Name("__import__") || (func.Attribute? && func.attr == "import_module")
  }

  /** The module a walked node names as a dynamic import: a string literal as first positional argument of a loader call. */
  function DynamicTarget(n: Node): (r: Option<string>)
    ensures r.Some? <==> n.CallNode? && IsDynamicLoader(n.func) && FirstStringArg(n.args).Some?
    ensures r.Some? ==> n.args[0] == Const(StrConst(r.value))
  {
    match n
    case CallNode(func, args, _) =>
      if IsDynamicLoader(func) then FirstStringArg(args) else None
    case _ => None
  }

  /** The loop of `extract_dynamic_imports` over the walked nodes. */
  function DynamicNodes(nodes: seq<Node>): seq<string>
    decreases |nodes|
  {
    if |nodes| == 0 then []
    else
      var rest := DynamicNodes(nodes[1..]);
      match DynamicTarget(nodes[0])
      case Some(m) => [m] + rest
      case None => rest
  }

  /**
    `extract_dynamic_imports`: a syntax error gives nothing; otherwise every walked
    node contributes its own targets at its place in the walk.
  */
  function ExtractDynamicImports(tree: ParseOutcome): (r: seq<string>)
    ensures tree.SyntaxError? ==> r == []
    ensures tree.Parsed? ==> forall k :: 0 <= k < |tree.nodes| ==>
      r == DynamicNodes(tree.nodes[..k]) + DynamicNodes([tree.nodes[k]]) + DynamicNodes(tree.nodes[k + 1..])
  {
    match tree
    case SyntaxError(_, _) => []
    case Parsed(nodes) =>
      assert forall k :: 0 <= k < |nodes| ==>
        DynamicNodes(nodes) == DynamicNodes(nodes[..k]) + DynamicNodes([nodes[k]]) + DynamicNodes(nodes[k + 1..]) by {
        forall k | 0 <= k < |nodes|
          ensures DynamicNodes(nodes) == DynamicNodes(nodes[..k]) + DynamicNodes([nodes[k]]) + DynamicNodes(nodes[k + 1..])
        {
          DynamicNodesAround(nodes, k);
        }
      }
      DynamicNodes(nodes)
  }

  /** Extraction distributes over concatenated walks: targets come out in walk order, repeats kept. */
  lemma {:induction false} DynamicNodesAppend(a: seq<Node>, b: seq<Node>)
    ensures DynamicNodes(a + b) == DynamicNodes(a) + DynamicNodes(b)
    decreases |a|
  {
    if |a| > 0 {
      assert (a + b)[0] == a[0];
      assert (a + b)[1..] == a[1..] + b;
      DynamicNodesAppend(a[1..], b);
      var h := if DynamicTarget(a[0]).Some? then [DynamicTarget(a[0]).value] else [];
      ConcatAssoc(h, DynamicNodes(a[1..]), DynamicNodes(b));
    } else {
      assert a + b == b;
    }
  }

  /** A single node yields its own target, if it has one, and nothing else. */
  lemma DynamicNodesOfNode(n: Node)
    ensures DynamicTarget(n).Some? ==> DynamicNodes([n]) == [DynamicTarget(n).value]
    ensures DynamicTarget(n).None? ==> DynamicNodes([n]) == []
  {
    assert [n][1..] == [];
  }

  /** The walk split around its `k`-th node. */
  lemma DynamicNodesAround(nodes: seq<Node>, k: nat)
    requires k < |nodes|
    ensures DynamicNodes(nodes) == DynamicNodes(nodes[..k]) + DynamicNodes([nodes[k]]) + DynamicNodes(nodes[k + 1..])
  {
    var a, m, c := nodes[..k], [nodes[k]], nodes[k + 1..];
    SplitAround(nodes, k);
    DynamicNodesAppend(a, m + c);
    DynamicNodesAppend(m, c);
    ConcatAssoc(DynamicNodes(a), DynamicNodes(m), DynamicNodes(c));
  }

  /** A string is extracted exactly when some walked node is a loader call with that literal as first argument. */
  lemma {:induction false} DynamicMembership(nodes: seq<Node>, s: string)
    ensures s in DynamicNodes(nodes) <==> exists i :: 0 <= i < |nodes| && DynamicTarget(nodes[i]) == Some(s)
    decreases |nodes|
  {
    if |nodes| > 0 {
      DynamicMembership(nodes[1..], s);
      if s in DynamicNodes(nodes) && DynamicTarget(nodes[0]) != Some(s) {
        var i :| 0 <= i < |nodes[1..]| && DynamicTarget(nodes[1..][i]) == Some(s);
        assert DynamicTarget(nodes[i + 1]) == Some(s);
      }
      if exists i :: 0 <= i < |nodes| && DynamicTarget(nodes[i]) == Some(s) {
        var i :| 0 <= i < |nodes| && DynamicTarget(nodes[i]) == Some(s);
        if i > 0 {
          assert DynamicTarget(nodes[1..][i - 1]) == Some(s);
        }
      }
    }
  }

  /** Every extracted target is the string-literal first argument of some call node; nothing else is returned. */
  lemma OnlyLiteralTargets(nodes: seq<Node>, s: string)
    requires s in DynamicNodes(nodes)
    ensures exists i :: (0 <= i < |nodes| && nodes[i].CallNode? && |nodes[i].args| > 0
                         && nodes[i].args[0] == Const(StrConst(s)) && IsDynamicLoader(nodes[i].func))
  {
    DynamicMembership(nodes, s);
    var i :| 0 <= i < |nodes| && DynamicTarget(nodes[i]) == Some(s);
    assert nodes[i].args[0] == Const(StrConst(s));
  }
}

=== FILE: fs.dfy ===
/**
  An abstract filesystem snapshot. Paths are already canonical (`Path.resolve` is
  the identity here), and a file's text is represented by what parsing it gives,
  or by the read failure.
*/
module Fs {
  import opened Paths
  import opened Syntax

  /** What `read_text(encoding="utf-8")` followed by `ast.parse` gives for a file. */
  datatype FileText = Unreadable | Readable(tree: ParseOutcome)

  datatype Entry = File(text: FileText) | Dir

  type FileSystem = map<Path, Entry>

  /** `p.is_file()` */
  predicate IsFile(fs: FileSystem, p: Path) {
    p in fs && fs[p].File?
  }

  /** `p.is_dir()` */
  predicate IsDir(fs: FileSystem, p: Path) {
    p in fs && fs[p].Dir?
  }

  /** `p.exists()` */
  predicate Exists(fs: FileSystem, p: Path) {
    p in fs
  }
}

=== FILE: parse_imports.dfy ===
/**
  The standalone extractor `parse_imports.py`: static imports keep their `as`
  names, and every recognised dynamic-import call is reported, literal or not.
*/
module ParseImports {
  import opened Wrappers
  import opened Paths
  import opened Syntax
  import opened Analyzer

  /** `{"module", "alias", "line"}` of one `import` alias. */
  datatype ImportEntry = ImportEntry(moduleName: string, alias: Option<string>, line: int)

  /** `{"name", "alias"}` of one name of a `from` import. */
  datatype NamePair = NamePair(name: string, alias: Option<string>)

  /** `{"module", "names", "level", "line"}` of one `from` import. */
  datatype FromImportEntry = FromImportEntry(moduleName: string, names: seq<NamePair>, level: nat, line: int)

  /** The `"type"` of a dynamic import: `"builtin"` or `"importlib"`. */
  datatype LoaderKind = Builtin | Importlib

  /**
    A dynamic import: with a constant first argument, its value is the `"module"`;
    otherwise `"module"` is null and `"expression"` renders the argument (null without arguments).
  */
  datatype DynamicImport =
    | LiteralTarget(kind: LoaderKind, value: Constant, line: int)
    | ExpressionTarget(kind: LoaderKind, line: int, expression: Option<string>)

  /** `{"type", "message", "line"}` of a parse error. */
  datatype ParseError = ParseError(kind: string, message: string, line: int)

  datatype ParseResult = ParseResult(
    imports: seq<ImportEntry>,
    fromImports: seq<FromImportEntry>,
    dynamicImports: seq<DynamicImport>,
    errors: seq<ParseError>)

  function KindName(k: LoaderKind): string {
    match k
    case Builtin => "builtin"
    case Importlib => "importlib"
  }

  /** The fallback branch of `_ast_to_str`, used when `ast.unparse` is missing. */
  function AstToStr(e: Expr): string {
    match e
    case Name(id) => id
    case Attribute(v, attr) => AstToStr(v) + "." + attr
    case Const(c) => Repr(c)
    case OtherExpr => "<dynamic>"
  }

  /** The expression `root.a1.a2...` built from a name and attribute names. */
  function Chain(root: string, attrs: seq<string>): Expr
    decreases |attrs|
  {
    if |attrs| == 0 then Name(root) else Attribute(Chain(root, attrs[..|attrs| - 1]), attrs[|attrs| - 1])
  }

  /** An attribute chain over a name renders as its pieces joined by dots. */
  lemma {:induction false} ChainRendering(root: string, attrs: seq<string>)
    ensures AstToStr(Chain(root, attrs)) == JoinWith([root] + attrs, '.')
    decreases |attrs|
  {
    if |attrs| > 0 {
      var init := attrs[..|attrs| - 1];
      ChainRendering(root, init);
      assert [root] + attrs == ([root] + init) + [attrs[|attrs| - 1]];
      JoinWithSnoc([root] + init, attrs[|attrs| - 1], '.');
    }
  }

  /** What a recognised loader call reports, from its positional arguments. */
  function Describe(kind: LoaderKind, args: seq<Expr>, line: int): (r: DynamicImport)
    ensures r.kind == kind && r.line == line
    ensures r.LiteralTarget? <==> |args| > 0 && args[0].Const?
    ensures r.LiteralTarget? ==> args[0] == Const(r.value)
    ensures r.ExpressionTarget? ==> (r.expression.None? <==> |args| == 0)
    ensures r.ExpressionTarget? && |args| > 0 ==> r.expression == Some(AstToStr(args[0]))
  {
    if |args| > 0 && args[0].Const? then LiteralTarget(kind, args[0].c, line)
    else ExpressionTarget(kind, line, if |args| > 0 then Some(AstToStr(args[0])) else None)
  }

  /** `extract_dynamic_import`: `__import__` as a bare name, `import_module` only on the bare name `importlib`. */
  function ExtractDynamicImport(func: Expr, args: seq<Expr>, line: int): (r: Option<DynamicImport>)
    ensures r.Some? <==> func == Name("__import__") || func == Attribute(Name("importlib"), "import_module")
    ensures r.Some? ==> r.value.kind == (if func == Name("__import__") then Builtin else Importlib)
    ensures r.Some? ==> r.value == Describe(if func == Name("__import__") then Builtin else Importlib, args, line)
  {
    if func == Name("__import__") then Some(Describe(Builtin, args, line))
    else if func.Attribute? && func.attr == "import_module" && func.value == Name("importlib") then
      Some(Describe(Importlib, args, line))
    else None
  }

  function AliasEntries(aliases: seq<Alias>, line: int): (r: seq<ImportEntry>)
    ensures |r| == |aliases|
    ensures forall k :: 0 <= k < |r| ==> r[k] == ImportEntry(aliases[k].name, aliases[k].asname, line)
    decreases |aliases|
  {
    if |aliases| == 0 then []
    else [ImportEntry(aliases[0].name, aliases[0].asname, line)] + AliasEntries(aliases[1..], line)
  }

  function NamePairs(aliases: seq<Alias>): (r: seq<NamePair>)
    ensures |r| == |aliases|
    ensures forall k :: 0 <= k < |r| ==> r[k] == NamePair(aliases[k].name, aliases[k].asname)
    decreases |aliases|
  {
    if |aliases| == 0 then [] else [NamePair(aliases[0].name, aliases[0].asname)] + NamePairs(aliases[1..])
  }

  /** The `"imports"` list: the walk's `import` aliases in order. */
  function PlainEntries(nodes: seq<Node>): seq<ImportEntry>
    decreases |nodes|
  {
    if |nodes| == 0 then []
    else (if nodes[0].ImportNode? then AliasEntries(nodes[0].names, nodes[0].lineno) else []) + PlainEntries(nodes[1..])
  }

  /** The `"fromImports"` list: one entry per `from` statement in walk order. */
  function FromEntries(nodes: seq<Node>): seq<FromImportEntry>
    decreases |nodes|
  {
    if |nodes| == 0 then []
    else
      var n := nodes[0];
      (if n.ImportFromNode? then [FromImportEntry(n.moduleName.GetOr(""), NamePairs(n.names), n.level, n.lineno)] else [])
      + FromEntries(nodes[1..])
  }

  /** The `"dynamicImports"` list: one entry per recognised call in walk order. */
  function DynamicEntries(nodes: seq<Node>): seq<DynamicImport>
    decreases |nodes|
  {
    if |nodes| == 0 then []
    else
      var n := nodes[0];
      var here := if n.CallNode? then ExtractDynamicImport(n.func, n.args, n.lineno) else None;
      (if here.Some? then [here.value] else []) + DynamicEntries(nodes[1..])
  }

  /** `parse_imports`: a syntax error gives empty lists and one `"syntax"` error at its line, or 0. */
  function ParseImportsOf(tree: ParseOutcome): (r: ParseResult)
    ensures tree.SyntaxError? ==>
      r.imports == [] && r.fromImports == [] && r.dynamicImports == []
      && |r.errors| == 1 && r.errors[0].kind == "syntax" && r.errors[0].message == tree.message
      && (tree.lineno.Some? ==> r.errors[0].line == tree.lineno.value)
      && (tree.lineno.None? ==> r.errors[0].line == 0)
    ensures tree.Parsed? ==> r.errors == []
    ensures tree.Parsed? ==>
      && EntryModules(r.imports) == PlainModules(AnalyzeNodes(tree.nodes))
      && EntryShapes(r.fromImports) == FromShapes(AnalyzeNodes(tree.nodes))
    ensures tree.Parsed? ==> forall k :: 0 <= k < |tree.nodes| ==>
      r.imports == PlainEntries(tree.nodes[..k]) + PlainEntries([tree.nodes[k]]) + PlainEntries(tree.nodes[k + 1..])
    ensures tree.Parsed? ==> forall k :: 0 <= k < |tree.nodes| ==>
      r.fromImports == FromEntries(tree.nodes[..k]) + FromEntries([tree.nodes[k]]) + FromEntries(tree.nodes[k + 1..])
    ensures tree.Parsed? ==> forall k :: 0 <= k < |tree.nodes| ==>
      r.dynamicImports == DynamicEntries(tree.nodes[..k]) + DynamicEntries([tree.nodes[k]]) + DynamicEntries(tree.nodes[k + 1..])
  {
    match tree
    case SyntaxError(message, lineno) => ParseResult([], [], [], [ParseError("syntax", message, lineno.GetOr(0))])
    case Parsed(nodes) =>
      PlainImportsAgree(nodes);
      FromImportsAgree(nodes);
      PlainEntriesSplits(nodes);
      FromEntriesSplits(nodes);
      DynamicEntriesSplits(nodes);
      ParseResult(PlainEntries(nodes), FromEntries(nodes), DynamicEntries(nodes), [])
  }

  /** The module names of the analyzer's plain-`import` records, in order. */
  function PlainModules(infos: seq<ImportInfo>): seq<string>
    decreases |infos|
  {
    if |infos| == 0 then []
    else (if infos[0].isFromImport then [] else [infos[0].moduleName]) + PlainModules(infos[1..])
  }

  function EntryModules(entries: seq<ImportEntry>): (r: seq<string>)
    ensures |r| == |entries|
    ensures forall k :: 0 <= k < |r| ==> r[k] == entries[k].moduleName
    decreases |entries|
  {
    if |entries| == 0 then [] else [entries[0].moduleName] + EntryModules(entries[1..])
  }

  lemma {:induction false} PlainModulesAppend(a: seq<ImportInfo>, b: seq<ImportInfo>)
    ensures PlainModules(a + b) == PlainModules(a) + PlainModules(b)
    decreases |a|
  {
    if |a| > 0 {
      assert (a + b)[0] == a[0];
      assert (a + b)[1..] == a[1..] + b;
      PlainModulesAppend(a[1..], b);
      var h, x, y := (if a[0].isFromImport then [] else [a[0].moduleName]), PlainModules(a[1..]), PlainModules(b);
      assert PlainModules(a + b) == h + (x + y);
      ConcatAssoc(h, x, y);
    } else {
      assert a + b == b;
    }
  }

  lemma {:induction false} PlainImportsModules(aliases: seq<Alias>, line: int)
    ensures PlainModules(PlainImports(aliases, line)) == EntryModules(AliasEntries(aliases, line))
    decreases |aliases|
  {
    if |aliases| > 0 {
      var r := PlainImports(aliases, line);
      assert r[1..] == PlainImports(aliases[1..], line);
      PlainImportsModules(aliases[1..], line);
      var e := AliasEntries(aliases, line);
      assert e[1..] == AliasEntries(aliases[1..], line);
    }
  }

  /** Both extractors report the same plain-`import` module names, in the same order. */
  lemma {:induction false} PlainImportsAgree(nodes: seq<Node>)
    ensures PlainModules(AnalyzeNodes(nodes)) == EntryModules(PlainEntries(nodes))
    decreases |nodes|
  {
    if |nodes| > 0 {
      var n := nodes[0];
      PlainImportsAgree(nodes[1..]);
      PlainModulesAppend(NodeImports(n), AnalyzeNodes(nodes[1..]));
      var here := if n.ImportNode? then AliasEntries(n.names, n.lineno) else [];
      EntryModulesAppend(here, PlainEntries(nodes[1..]));
      if n.ImportNode? {
        PlainImportsModules(n.names, n.lineno);
      } else if n.ImportFromNode? {
        assert PlainModules(NodeImports(n)) == [];
      }
    }
  }

  lemma EntryModulesAppend(a: seq<ImportEntry>, b: seq<ImportEntry>)
    ensures EntryModules(a + b) == EntryModules(a) + EntryModules(b)
  {
    var whole, parts := EntryModules(a + b), EntryModules(a) + EntryModules(b);
    forall i | 0 <= i < |whole|
      ensures whole[i] == parts[i]
    {
      if i < |a| {
        assert (a + b)[i] == a[i];
      } else {
        assert (a + b)[i] == b[i - |a|];
      }
    }
  }

  /** The `"imports"` list distributes over concatenation of walks, so entries come out in walk order. */
  lemma {:induction false} PlainEntriesAppend(a: seq<Node>, b: seq<Node>)
    ensures PlainEntries(a + b) == PlainEntries(a) + PlainEntries(b)
    decreases |a|
  {
    if |a| > 0 {
      var n := a[0];
      assert (a + b)[0] == n;
      assert (a + b)[1..] == a[1..] + b;
      PlainEntriesAppend(a[1..], b);
      var h := if n.ImportNode? then AliasEntries(n.names, n.lineno) else [];
      ConcatAssoc(h, PlainEntries(a[1..]), PlainEntries(b));
    } else {
      assert a + b == b;
    }
  }

  /** An `import` statement gives one entry per alias, with its `as` name and the line; any other node gives none. */
  lemma PlainEntriesOfNode(n: Node)
    ensures var r := PlainEntries([n]);
      && (!n.ImportNode? ==> r == [])
      && (n.ImportNode? ==>
            && |r| == |n.names|
            && forall k :: 0 <= k < |r| ==> r[k] == ImportEntry(n.names[k].name, n.names[k].asname, n.lineno))
  {
    assert [n][1..] == [];
  }

  /** Every node's entries sit between those of the nodes before and after it. */
  lemma PlainEntriesSplits(nodes: seq<Node>)
    ensures forall k :: 0 <= k < |nodes| ==>
      PlainEntries(nodes) == PlainEntries(nodes[..k]) + PlainEntries([nodes[k]]) + PlainEntries(nodes[k + 1..])
  {
    forall k | 0 <= k < |nodes|
      ensures PlainEntries(nodes) == PlainEntries(nodes[..k]) + PlainEntries([nodes[k]]) + PlainEntries(nodes[k + 1..])
    {
      PlainEntriesAround(nodes, k);
    }
  }

  /** The walk split around its `k`-th node. */
  lemma PlainEntriesAround(nodes: seq<Node>, k: nat)
    requires k < |nodes|
    ensures PlainEntries(nodes) == PlainEntries(nodes[..k]) + PlainEntries([nodes[k]]) + PlainEntries(nodes[k + 1..])
  {
    var a, m, c := nodes[..k], [nodes[k]], nodes[k + 1..];
    SplitAround(nodes, k);
    PlainEntriesAppend(a, m + c);
    PlainEntriesAppend(m, c);
    ConcatAssoc(PlainEntries(a), PlainEntries(m), PlainEntries(c));
  }

  /** Every node's entries sit between those of the nodes before and after it. */
  lemma FromEntriesSplits(nodes: seq<Node>)
    ensures forall k :: 0 <= k < |nodes| ==>
      FromEntries(nodes) == FromEntries(nodes[..k]) + FromEntries([nodes[k]]) + FromEntries(nodes[k + 1..])
  {
    forall k | 0 <= k < |nodes|
      ensures FromEntries(nodes) == FromEntries(nodes[..k]) + FromEntries([nodes[k]]) + FromEntries(nodes[k + 1..])
    {
      FromEntriesAround(nodes, k);
    }
  }

  /** The walk split around its `k`-th node. */
  lemma FromEntriesAround(nodes: seq<Node>, k: nat)
    requires k < |nodes|
    ensures FromEntries(nodes) == FromEntries(nodes[..k]) + FromEntries([nodes[k]]) + FromEntries(nodes[k + 1..])
  {
    var a, m, c := nodes[..k], [nodes[k]], nodes[k + 1..];
    SplitAround(nodes, k);
    FromEntriesAppend(a, m + c);
    FromEntriesAppend(m, c);
    ConcatAssoc(FromEntries(a), FromEntries(m), FromEntries(c));
  }

  /** Entry extraction distributes over concatenation of walks. */
  lemma {:induction false} FromEntriesAppend(a: seq<Node>, b: seq<Node>)
    ensures FromEntries(a + b) == FromEntries(a) + FromEntries(b)
    decreases |a|
  {
    if |a| > 0 {
      var n := a[0];
      assert (a + b)[0] == n;
      assert (a + b)[1..] == a[1..] + b;
      FromEntriesAppend(a[1..], b);
      var h := if n.ImportFromNode? then [FromImportEntry(n.moduleName.GetOr(""), NamePairs(n.names), n.level, n.lineno)] else [];
      ConcatAssoc(h, FromEntries(a[1..]), FromEntries(b));
    } else {
      assert a + b == b;
    }
  }

  /**
    A `from` statement gives one entry with the module (empty for `from . import`),
    every name with its `as` name in order, the dot count and the line; any other
    node gives none.
  */
  lemma FromEntriesOfNode(n: Node)
    ensures var r := FromEntries([n]);
      && (!n.ImportFromNode? ==> r == [])
      && (n.ImportFromNode? ==>
            && |r| == 1 && r[0].level == n.level && r[0].line == n.lineno
            && (n.moduleName.None? ==> r[0].moduleName == "")
            && (n.moduleName.Some? ==> r[0].moduleName == n.moduleName.value)
            && |r[0].names| == |n.names|
            && forall k :: 0 <= k < |n.names| ==> r[0].names[k].name == n.names[k].name && r[0].names[k].alias == n.names[k].asname)
  {
    assert [n][1..] == [];
  }

  /** What both extractors record of a `from` statement: module, imported names, dot count and line. */
  datatype FromShape = FromShape(moduleName: string, names: seq<string>, level: nat, line: int)

  /** The shapes of the analyzer's `from` records, in order. */
  function FromShapes(infos: seq<ImportInfo>): seq<FromShape>
    decreases |infos|
  {
    if |infos| == 0 then []
    else
      var i := infos[0];
      (if i.isFromImport then [FromShape(i.moduleName, i.names, i.level, i.lineno)] else []) + FromShapes(infos[1..])
  }

  function PairNames(pairs: seq<NamePair>): (r: seq<string>)
    ensures |r| == |pairs|
    ensures forall k :: 0 <= k < |r| ==> r[k] == pairs[k].name
    decreases |pairs|
  {
    if |pairs| == 0 then [] else [pairs[0].name] + PairNames(pairs[1..])
  }

  /** The shapes of the `"fromImports"` entries, dropping the `as` names. */
  function EntryShapes(entries: seq<FromImportEntry>): (r: seq<FromShape>)
    ensures |r| == |entries|
    ensures forall k :: 0 <= k < |r| ==>
      r[k] == FromShape(entries[k].moduleName, PairNames(entries[k].names), entries[k].level, entries[k].line)
    decreases |entries|
  {
    if |entries| == 0 then []
    else
      var e := entries[0];
      [FromShape(e.moduleName, PairNames(e.names), e.level, e.line)] + EntryShapes(entries[1..])
  }

  lemma {:induction false} FromShapesAppend(a: seq<ImportInfo>, b: seq<ImportInfo>)
    ensures FromShapes(a + b) == FromShapes(a) + FromShapes(b)
    decreases |a|
  {
    if |a| > 0 {
      var i := a[0];
      assert (a + b)[0] == i;
      assert (a + b)[1..] == a[1..] + b;
      FromShapesAppend(a[1..], b);
      var h := if i.isFromImport then [FromShape(i.moduleName, i.names, i.level, i.lineno)] else [];
      ConcatAssoc(h, FromShapes(a[1..]), FromShapes(b));
    } else {
      assert a + b == b;
    }
  }

  lemma {:induction false} PlainImportsNoShapes(aliases: seq<Alias>, line: int)
    ensures FromShapes(PlainImports(aliases, line)) == []
    decreases |aliases|
  {
    if |aliases| > 0 {
      var r := PlainImports(aliases, line);
      assert r[1..] == PlainImports(aliases[1..], line);
      PlainImportsNoShapes(aliases[1..], line);
    }
  }

  lemma EntryShapesAppend(a: seq<FromImportEntry>, b: seq<FromImportEntry>)
    ensures EntryShapes(a + b) == EntryShapes(a) + EntryShapes(b)
  {
    var whole, parts := EntryShapes(a + b), EntryShapes(a) + EntryShapes(b);
    forall i | 0 <= i < |whole|
      ensures whole[i] == parts[i]
    {
      if i < |a| {
        assert (a + b)[i] == a[i];
      } else {
        assert (a + b)[i] == b[i - |a|];
      }
    }
  }

  /** Both extractors report the same `from` statements, with the same module, names, dot count and line, in the same order. */
  lemma {:induction false} FromImportsAgree(nodes: seq<Node>)
    ensures FromShapes(AnalyzeNodes(nodes)) == EntryShapes(FromEntries(nodes))
    decreases |nodes|
  {
    if |nodes| > 0 {
      var n := nodes[0];
      FromImportsAgree(nodes[1..]);
      FromShapesAppend(NodeImports(n), AnalyzeNodes(nodes[1..]));
      var here := if n.ImportFromNode? then [FromImportEntry(n.moduleName.GetOr(""), NamePairs(n.names), n.level, n.lineno)] else [];
      EntryShapesAppend(here, FromEntries(nodes[1..]));
      if n.ImportNode? {
        PlainImportsNoShapes(n.names, n.lineno);
      } else if n.ImportFromNode? {
        assert PairNames(NamePairs(n.names)) == AliasNames(n.names);
        assert FromShapes(NodeImports(n)) == EntryShapes(here);
      } else {
        assert FromShapes(NodeImports(n)) == [];
      }
    }
  }

  /** A literal `__import__` or `importlib.import_module` target reported here is also found by the analyzer. */
  lemma {:induction false} LiteralTargetsExtracted(nodes: seq<Node>, k: LoaderKind, s: string, line: int)
    requires LiteralTarget(k, StrConst(s), line) in DynamicEntries(nodes)
    ensures s in DynamicNodes(nodes)
    decreases |nodes|
  {
    var n := nodes[0];
    var here := if n.CallNode? then ExtractDynamicImport(n.func, n.args, n.lineno) else None;
    var hs := if here.Some? then [here.value] else [];
    assert DynamicEntries(nodes) == hs + DynamicEntries(nodes[1..]);
    if here == Some(LiteralTarget(k, StrConst(s), line)) {
      assert n.args[0] == Const(StrConst(s));
      assert DynamicTarget(n) == Some(s);
    } else {
      LiteralTargetsExtracted(nodes[1..], k, s, line);
    }
  }

  /** The `"dynamicImports"` list distributes over concatenated walks, so entries come out in walk order. */
  lemma {:induction false} DynamicEntriesAppend(a: seq<Node>, b: seq<Node>)
    ensures DynamicEntries(a + b) == DynamicEntries(a) + DynamicEntries(b)
    decreases |a|
  {
    if |a| > 0 {
      var n := a[0];
      assert (a + b)[0] == n;
      assert (a + b)[1..] == a[1..] + b;
      DynamicEntriesAppend(a[1..], b);
      var here := if n.CallNode? then ExtractDynamicImport(n.func, n.args, n.lineno) else None;
      var h := if here.Some? then [here.value] else [];
      ConcatAssoc(h, DynamicEntries(a[1..]), DynamicEntries(b));
    } else {
      assert a + b == b;
    }
  }

  /**
    A single node reports one entry exactly when it is a call of bare `__import__` or of
    `importlib.import_module`, described from its arguments and line; any other node reports none.
  */
  lemma DynamicEntriesOfNode(n: Node)
    ensures n.CallNode? && n.func == Name("__import__") ==> DynamicEntries([n]) == [Describe(Builtin, n.args, n.lineno)]
    ensures n.CallNode? && n.func == Attribute(Name("importlib"), "import_module") ==>
      DynamicEntries([n]) == [Describe(Importlib, n.args, n.lineno)]
    ensures !(n.CallNode? && (n.func == Name("__import__") || n.func == Attribute(Name("importlib"), "import_module"))) ==>
      DynamicEntries([n]) == []
  {
    assert [n][1..] == [];
  }

  /** Every node's entries sit between those of the nodes before and after it. */
  lemma DynamicEntriesSplits(nodes: seq<Node>)
    ensures forall k :: 0 <= k < |nodes| ==>
      DynamicEntries(nodes) == DynamicEntries(nodes[..k]) + DynamicEntries([nodes[k]]) + DynamicEntries(nodes[k + 1..])
  {
    forall k | 0 <= k < |nodes|
      ensures DynamicEntries(nodes) == DynamicEntries(nodes[..k]) + DynamicEntries([nodes[k]]) + DynamicEntries(nodes[k + 1..])
    {
      DynamicEntriesAround(nodes, k);
    }
  }

  /** The walk split around its `k`-th node. */
  lemma DynamicEntriesAround(nodes: seq<Node>, k: nat)
    requires k < |nodes|
    ensures DynamicEntries(nodes) == DynamicEntries(nodes[..k]) + DynamicEntries([nodes[k]]) + DynamicEntries(nodes[k + 1..])
  {
    var a, m, c := nodes[..k], [nodes[k]], nodes[k + 1..];
    SplitAround(nodes, k);
    DynamicEntriesAppend(a, m + c);
    DynamicEntriesAppend(m, c);
    ConcatAssoc(DynamicEntries(a), DynamicEntries(m), DynamicEntries(c));
  }

  /** The converse fails: the analyzer accepts `import_module` on any receiver, this extractor only on `importlib`. */
  lemma ReceiverDiffers()
    ensures var nodes := [CallNode(Attribute(Name("loader"), "import_module"), [Const(StrConst("plugins"))], 1)];
      "plugins" in DynamicNodes(nodes) && DynamicEntries(nodes) == []
  {
    var nodes := [CallNode(Attribute(Name("loader"), "import_module"), [Const(StrConst("plugins"))], 1)];
    assert DynamicTarget(nodes[0]) == Some("plugins");
    assert nodes[1..] == [];
  }
}

=== FILE: paths.dfy ===
/** Pure path arithmetic: the parts of `pathlib.Path` and of `str` the tracer relies on. */
module Paths {
  import opened Wrappers

  /** An absolute, canonical filesystem path given by its components; `[]` is the root `/`. */
  type Path = seq<string>

  /** A component as it appears in a canonical path: non-empty, without separator, not `.`. */
  predicate ValidComponent(c: string) {
    |c| > 0 && '/' !in c && c != "."
  }

  predicate ValidPath(p: Path) {
    forall k :: 0 <= k < |p| ==> ValidComponent(p[k])
  }

  /** pathlib's `.name`: the last component, or "" for the root. */
  function BaseName(p: Path): string {
    if |p| == 0 then "" else p[|p| - 1]
  }

  /** pathlib's `.parent`: the root is its own parent. */
  function Parent(p: Path): (r: Path)
    ensures |p| > 0 ==> r + [BaseName(p)] == p
    ensures |p| == 0 ==> r == []
  {
    if |p| == 0 then p else p[..|p| - 1]
  }

  /** `.parent` taken `n` times. */
  function Ascend(p: Path, n: nat): Path
    decreases n
  {
    if n == 0 then p else Ascend(Parent(p), n - 1)
  }

  /** Ascending `n` times drops the last `n` components, and stops at the root. */
  lemma {:induction false} AscendDropsComponents(p: Path, n: nat)
    ensures n <= |p| ==> Ascend(p, n) == p[..|p| - n]
    ensures n > |p| ==> Ascend(p, n) == []
    decreases n
  {
    if n > 0 {
      AscendDropsComponents(Parent(p), n - 1);
    }
  }

  /** A string `pathlib` reads as an absolute path: it begins with the separator. */
  predicate StartsAtRoot(part: string) {
    |part| > 0 && part[0] == '/'
  }

  /** The pieces `pathlib` keeps as components: the empty piece and `.` are dropped. */
  function KeptPieces(pieces: seq<string>): (r: seq<string>)
    ensures forall k :: 0 <= k < |r| ==> r[k] != "" && r[k] != "." && r[k] in pieces
    ensures (forall k :: 0 <= k < |pieces| ==> pieces[k] != "" && pieces[k] != ".") ==> r == pieces
    decreases |pieces|
  {
    if |pieces| == 0 then []
    else if pieces[0] == "" || pieces[0] == "." then KeptPieces(pieces[1..])
    else [pieces[0]] + KeptPieces(pieces[1..])
  }

  /** The components `pathlib` makes of one string: its `/`-separated pieces, without empty ones and `.`. */
  function Components(part: string): (r: seq<string>)
    ensures ValidPath(r)
    ensures ValidComponent(part) ==> r == [part]
    ensures part == "" ==> r == []
  {
    if '/' in part then KeptPieces(Split(part, '/'))
    else
      SplitWithoutSeparator(part, '/');
      KeptPieces(Split(part, '/'))
  }

  /**
    pathlib's `p / part`: the string is parsed as a path, so a part holding `/`
    adds several components, and an absolute part starts again at the root.
  */
  function Child(p: Path, part: string): (r: Path)
    ensures ValidPath(p) ==> ValidPath(r)
    ensures !StartsAtRoot(part) ==> IsAncestor(p, r) && r[|p|..] == Components(part)
    ensures StartsAtRoot(part) ==> r == Components(part)
    ensures ValidComponent(part) ==> r == p + [part]
    ensures part == "" ==> r == p
  {
    if StartsAtRoot(part) then Components(part) else p + Components(part)
  }

  /** `p / parts[0] / parts[1] / ...`, one part at a time. */
  function Join(p: Path, parts: seq<string>): (r: Path)
    ensures ValidPath(p) ==> ValidPath(r)
    ensures (forall k :: 0 <= k < |parts| ==> !StartsAtRoot(parts[k])) ==> IsAncestor(p, r)
    ensures (forall k :: 0 <= k < |parts| ==> ValidComponent(parts[k])) ==> r == p + parts
    decreases |parts|
  {
    if |parts| == 0 then p
    else
      var q := Child(p, parts[0]);
      JoinStep(p, parts, Join(q, parts[1..]));
      Join(q, parts[1..])
  }

  /** What joining the first part contributes to the contract of `Join`. */
  lemma JoinStep(p: Path, parts: seq<string>, r: Path)
    requires |parts| > 0
    requires ValidPath(Child(p, parts[0])) ==> ValidPath(r)
    requires (forall k :: 0 <= k < |parts[1..]| ==> !StartsAtRoot(parts[1..][k])) ==> IsAncestor(Child(p, parts[0]), r)
    requires (forall k :: 0 <= k < |parts[1..]| ==> ValidComponent(parts[1..][k])) ==> r == Child(p, parts[0]) + parts[1..]
    ensures ValidPath(p) ==> ValidPath(r)
    ensures (forall k :: 0 <= k < |parts| ==> !StartsAtRoot(parts[k])) ==> IsAncestor(p, r)
    ensures (forall k :: 0 <= k < |parts| ==> ValidComponent(parts[k])) ==> r == p + parts
  {
    if forall k :: 0 <= k < |parts| ==> !StartsAtRoot(parts[k]) {
      JoinStepAncestor(p, parts, r);
    }
    if forall k :: 0 <= k < |parts| ==> ValidComponent(parts[k]) {
      JoinStepPlain(p, parts, r);
    }
  }

  lemma JoinStepAncestor(p: Path, parts: seq<string>, r: Path)
    requires |parts| > 0 && forall k :: 0 <= k < |parts| ==> !StartsAtRoot(parts[k])
    requires (forall k :: 0 <= k < |parts[1..]| ==> !StartsAtRoot(parts[1..][k])) ==> IsAncestor(Child(p, parts[0]), r)
    ensures IsAncestor(p, r)
  {
    var q := Child(p, parts[0]);
    assert !StartsAtRoot(parts[0]);
    assert forall k :: 0 <= k < |parts[1..]| ==> !StartsAtRoot(parts[1..][k]) by {
      forall k | 0 <= k < |parts[1..]| ensures !StartsAtRoot(parts[1..][k]) {
        assert parts[1..][k] == parts[k + 1];
      }
    }
    assert IsAncestor(p, q) && r[..|p|] == r[..|q|][..|p|];
  }

  lemma JoinStepPlain(p: Path, parts: seq<string>, r: Path)
    requires |parts| > 0 && forall k :: 0 <= k < |parts| ==> ValidComponent(parts[k])
    requires (forall k :: 0 <= k < |parts[1..]| ==> ValidComponent(parts[1..][k])) ==> r == Child(p, parts[0]) + parts[1..]
    ensures r == p + parts
  {
    assert forall k :: 0 <= k < |parts[1..]| ==> ValidComponent(parts[1..][k]) by {
      forall k | 0 <= k < |parts[1..]| ensures ValidComponent(parts[1..][k]) {
        assert parts[1..][k] == parts[k + 1];
      }
    }
    assert Child(p, parts[0]) == p + [parts[0]] by {
      assert ValidComponent(parts[0]);
    }
    ConsTail(p, parts);
  }

  /** Putting the head back on the tail restores the sequence. */
  lemma ConsTail<T>(p: seq<T>, parts: seq<T>)
    requires |parts| > 0
    ensures (p + [parts[0]]) + parts[1..] == p + parts
  {
    assert [parts[0]] + parts[1..] == parts;
  }

  /** `p.relative_to(a)` succeeds: `a` is a component-wise prefix of `p` (a path is its own ancestor). */
  predicate IsAncestor(a: Path, p: Path) {
    |a| <= |p| && p[..|a|] == a
  }

  /** Python's `s.find(c)`: the first index of `c`, or -1. */
  function IndexOf(s: string, c: char): (i: int)
    ensures -1 <= i < |s|
    ensures 0 <= i ==> s[i] == c
    ensures forall k :: 0 <= k < |s| && (i == -1 || k < i) ==> s[k] != c
    decreases |s|
  {
    if |s| == 0 then -1
    else if s[0] == c then 0
    else
      var j := IndexOf(s[1..], c);
      if j == -1 then -1 else j + 1
  }

  /** Python's `s.rfind(c)`: the last index of `c`, or -1. */
  function LastIndexOf(s: string, c: char): (i: int)
    ensures -1 <= i < |s|
    ensures 0 <= i ==> s[i] == c
    ensures forall k :: i < k < |s| ==> s[k] != c
    decreases |s|
  {
    if |s| == 0 then -1
    else if s[|s| - 1] == c then |s| - 1
    else LastIndexOf(s[..|s| - 1], c)
  }

  /** Python's `s.split(sep)` for a one-character separator. */
  function Split(s: string, sep: char): (r: seq<string>)
    ensures |r| >= 1
    ensures forall k :: 0 <= k < |r| ==> sep !in r[k]
    decreases |s|
  {
    var i := IndexOf(s, sep);
    if i == -1 then [s] else [s[..i]] + Split(s[i + 1..], sep)
  }

  /** Python's `sep.join(parts)`. */
  function JoinWith(parts: seq<string>, sep: char): (r: string)
    ensures |parts| > 0 ==> parts[0] <= r
    decreases |parts|
  {
    if |parts| == 0 then ""
    else if |parts| == 1 then parts[0]
    else parts[0] + [sep] + JoinWith(parts[1..], sep)
  }

  /** Appending one more piece to a non-empty join adds one separator and the piece. */
  lemma {:induction false} JoinWithSnoc(parts: seq<string>, x: string, sep: char)
    requires |parts| >= 1
    ensures JoinWith(parts + [x], sep) == JoinWith(parts, sep) + [sep] + x
    decreases |parts|
  {
    var whole := parts + [x];
    if |parts| > 1 {
      assert whole[1..] == parts[1..] + [x];
      JoinWithSnoc(parts[1..], x, sep);
    } else {
      assert whole[1..] == [x];
    }
  }

  /** A join of a head and a non-empty rest puts one separator between them. */
  lemma JoinWithCons(x: string, rest: seq<string>, sep: char)
    requires |rest| >= 1
    ensures JoinWith([x] + rest, sep) == x + [sep] + JoinWith(rest, sep)
  {
    assert ([x] + rest)[1..] == rest;
  }

  /** Joining the pieces of a split gives back the string. */
  lemma {:induction false} JoinSplit(s: string, sep: char)
    ensures JoinWith(Split(s, sep), sep) == s
    decreases |s|
  {
    var i := IndexOf(s, sep);
    if i != -1 {
      var head, tail := SplitAtFirst(s, sep);
      JoinSplit(tail, sep);
      JoinWithCons(head, Split(tail, sep), sep);
    }
  }

  /** A string with a separator splits into the piece before its first occurrence and the split of the rest. */
  lemma SplitAtFirst(s: string, sep: char) returns (head: string, tail: string)
    requires IndexOf(s, sep) != -1
    ensures |tail| < |s|
    ensures Split(s, sep) == [head] + Split(tail, sep)
    ensures s == head + [sep] + tail
  {
    var i := IndexOf(s, sep);
    head, tail := s[..i], s[i + 1..];
    assert s == head + [sep] + tail;
  }

  /** Splitting a join of separator-free pieces gives back the pieces. */
  lemma {:induction false} SplitJoin(parts: seq<string>, sep: char)
    requires |parts| >= 1
    requires forall k :: 0 <= k < |parts| ==> sep !in parts[k]
    ensures Split(JoinWith(parts, sep), sep) == parts
    decreases |parts|
  {
    var head := parts[0];
    if |parts| == 1 {
      SplitWithoutSeparator(head, sep);
    } else {
      assert [head] + parts[1..] == parts;
      JoinWithCons(head, parts[1..], sep);
      SplitAfterHead(head, JoinWith(parts[1..], sep), sep);
      SplitJoin(parts[1..], sep);
    }
  }

  /** A string without the separator is its own single piece. */
  lemma SplitWithoutSeparator(s: string, sep: char)
    requires sep !in s
    ensures Split(s, sep) == [s]
  {
    assert IndexOf(s, sep) == -1;
  }

  /** Splitting at a first separator that follows a separator-free head. */
  lemma SplitAfterHead(head: string, tail: string, sep: char)
    requires sep !in head
    ensures Split(head + [sep] + tail, sep) == [head] + Split(tail, sep)
  {
    var s := head + [sep] + tail;
    assert s[|head|] == sep;
    assert forall k :: 0 <= k < |head| ==> s[k] == head[k];
    assert IndexOf(s, sep) == |head|;
    assert s[..|head|] == head;
    assert s[|head| + 1..] == tail;
  }

  /** pathlib's `.suffix` of a name: from the last dot on, unless that dot is its first or last character. */
  function Suffix(name: string): (r: string)
    ensures r == "" || (|r| >= 2 && r[0] == '.' && '.' !in r[1..] && 0 < |name| - |r| && name[|name| - |r|..] == r)
  {
    var i := LastIndexOf(name, '.');
    if 0 < i < |name| - 1 then name[i..] else ""
  }

  /** The suffix of `stem + ".py"` is ".py" for every non-empty stem. */
  lemma PySuffixOfStem(stem: string)
    requires |stem| > 0
    ensures Suffix(stem + ".py") == ".py"
  {
    var s := stem + ".py";
    assert s[|stem|] == '.' && s[|stem| + 1] == 'p' && s[|stem| + 2] == 'y';
    assert LastIndexOf(s, '.') == |stem|;
  }

  /** pathlib's `p.with_suffix(".py")`: replaces the suffix of the last component, and raises for the root. */
  function WithPySuffix(p: Path): (r: Attempt<Path>)
    ensures BaseName(p) == "" <==> r.RaisedValueError?
    ensures r.Returned? ==> |r.value| == |p| && Parent(r.value) == Parent(p) && Suffix(BaseName(r.value)) == ".py"
  {
    var name := BaseName(p);
    if name == "" then RaisedValueError
    else
      var stem := name[..|name| - |Suffix(name)|];
      PySuffixOfStem(stem);
      Returned(Parent(p) + [stem + ".py"])
  }

  /** A name without a dot gains `.py`. */
  lemma WithPySuffixOfPlainName(p: Path)
    requires BaseName(p) != "" && '.' !in BaseName(p)
    ensures WithPySuffix(p) == Returned(Parent(p) + [BaseName(p) + ".py"])
  {
    var name := BaseName(p);
    assert LastIndexOf(name, '.') == -1;
    assert name[..|name| - |Suffix(name)|] == name;
  }

  /** `str(p)` of an absolute path. */
  function Render(p: Path): string {
    "/" + JoinWith(p, '/')
  }

  /** `str(q)` of a relative path: "." when it has no components. */
  function RenderRelative(parts: seq<string>): string {
    if |parts| == 0 then "." else JoinWith(parts, '/')
  }

  /** Reads an absolute path back from its rendering. */
  function ParseAbsolute(s: string): Path {
    if |s| <= 1 then [] else Split(s[1..], '/')
  }

  /** Reads a relative path back from its rendering. */
  function ParseRelative(s: string): seq<string> {
    if s == "." then [] else Split(s, '/')
  }

  /** A canonical path is recovered from its string form. */
  lemma RenderRoundTrip(p: Path)
    requires ValidPath(p)
    ensures ParseAbsolute(Render(p)) == p
    ensures |Render(p)| > 0 && Render(p)[0] == '/'
  {
    if |p| > 0 {
      assert p[0] <= JoinWith(p, '/');
      assert Render(p)[1..] == JoinWith(p, '/');
      SplitJoin(p, '/');
    }
  }

  /** A relative path of canonical components is recovered from its string form, which never starts with `/`. */
  lemma RenderRelativeRoundTrip(parts: seq<string>)
    requires ValidPath(parts)
    ensures ParseRelative(RenderRelative(parts)) == parts
    ensures |RenderRelative(parts)| > 0 && RenderRelative(parts)[0] != '/'
  {
    if |parts| > 0 {
      var s := JoinWith(parts, '/');
      assert parts[0] <= s;
      assert s[0] == parts[0][0];
      if |parts| == 1 {
        assert s != ".";
      } else {
        assert |s| > 1;
      }
      SplitJoin(parts, '/');
    }
  }

  /** A path as a caller passes it: already absolute, or the parts of a relative path, to be taken against a working directory. */
  datatype PathArg = Absolute(path: Path) | Relative(parts: seq<string>)

  /** `Path(arg)` made absolute: a relative argument is joined onto `cwd`; `resolve()` is the identity on canonical paths. */
  function Absolutize(arg: PathArg, cwd: Path): (r: Path)
    ensures arg.Absolute? ==> r == arg.path
    ensures arg.Relative? && (forall k :: 0 <= k < |arg.parts| ==> !StartsAtRoot(arg.parts[k])) ==> IsAncestor(cwd, r)
    ensures arg.Relative? && ValidPath(arg.parts) ==> r == cwd + arg.parts
  {
    match arg
    case Absolute(p) => p
    case Relative(parts) => Join(cwd, parts)
  }
}

=== FILE: resolver.dfy ===
/** Module resolution (`resolver.py`): relative and absolute imports to files, packages and namespace directories. */
module Resolver {
  import opened Wrappers
  import opened Paths
  import opened Fs
  import opened Analyzer

  /** The package marker file name. */
  const PackageMarker := "__init__.py"

  /** `_find_module_file` exactly as written: `with_suffix` raises `ValueError` on the root, whose name is empty. */
  function FindModuleFileAsWritten(fs: FileSystem, p: Path): Attempt<Option<Path>> {
    match WithPySuffix(p)
    case RaisedValueError => RaisedValueError
    case Returned(pyFile) =>
      if IsFile(fs, pyFile) then Returned(Some(pyFile))
      else if IsFile(fs, p + [PackageMarker]) then Returned(Some(p + [PackageMarker]))
      else if IsDir(fs, p) then Returned(Some(p))
      else Returned(None)
  }

  /** `p.with_suffix(".py")` when `p` has a name: the module file a lookup probes first. */
  function SiblingModuleFile(p: Path): Option<Path> {
    match WithPySuffix(p)
    case Returned(f) => Some(f)
    case RaisedValueError => None
  }

  /**
    `_find_module_file` with the root corrected: a path without a name has no
    `<name>.py` beside it, so only the package marker and the directory are probed.
  */
  function FindModuleFile(fs: FileSystem, p: Path): (r: Option<Path>)
    ensures r.Some? ==> r.value in fs
    ensures r.Some? ==>
      || (IsFile(fs, r.value) && (Some(r.value) == SiblingModuleFile(p) || r.value == p + [PackageMarker]))
      || (r.value == p && IsDir(fs, p))
    ensures r.None? <==>
      && (SiblingModuleFile(p).None? || !IsFile(fs, SiblingModuleFile(p).value))
      && !IsFile(fs, p + [PackageMarker])
      && !IsDir(fs, p)
  {
    var moduleFile := SiblingModuleFile(p);
    if moduleFile.Some? && IsFile(fs, moduleFile.value) then moduleFile
    else if IsFile(fs, p + [PackageMarker]) then Some(p + [PackageMarker])
    else if IsDir(fs, p) then Some(p)
    else None
  }

  /** The corrected lookup agrees with the written one wherever that returns; the written one raises exactly for an empty name. */
  lemma FindModuleFileAgrees(fs: FileSystem, p: Path)
    ensures FindModuleFileAsWritten(fs, p).RaisedValueError? <==> BaseName(p) == ""
    ensures FindModuleFileAsWritten(fs, p).Returned? ==> FindModuleFileAsWritten(fs, p).value == FindModuleFile(fs, p)
  {
    match WithPySuffix(p)
    case RaisedValueError =>
    case Returned(f) => assert SiblingModuleFile(p) == Some(f);
  }

  /** The module file wins over a package marker, and a package marker wins over a bare directory. */
  lemma FindModuleFilePrecedence(fs: FileSystem, p: Path, pyFile: Path)
    requires SiblingModuleFile(p) == Some(pyFile)
    ensures IsFile(fs, pyFile) ==> FindModuleFile(fs, p) == Some(pyFile)
    ensures !IsFile(fs, pyFile) && IsFile(fs, p + [PackageMarker]) ==> FindModuleFile(fs, p) == Some(p + [PackageMarker])
    ensures !IsFile(fs, pyFile) && !IsFile(fs, p + [PackageMarker]) && IsDir(fs, p) ==> FindModuleFile(fs, p) == Some(p)
  {
  }

  /** `base / part` for every dot-separated part of `moduleName`; an empty name appends nothing. */
  function ModulePath(base: Path, moduleName: string): (r: Path)
    ensures ValidPath(base) ==> ValidPath(r)
    ensures (forall k :: 0 <= k < |Split(moduleName, '.')| ==> !StartsAtRoot(Split(moduleName, '.')[k])) ==> IsAncestor(base, r)
  {
    Join(base, Split(moduleName, '.'))
  }

  /** The appended components are exactly the dotted parts of the module name, in order. */
  lemma ModulePathSegments(base: Path, moduleName: string)
    requires forall k :: 0 <= k < |Split(moduleName, '.')| ==> ValidComponent(Split(moduleName, '.')[k])
    ensures ModulePath(base, moduleName)[..|base|] == base
    ensures JoinWith(ModulePath(base, moduleName)[|base|..], '.') == moduleName
  {
    var parts := Split(moduleName, '.');
    assert ModulePath(base, moduleName)[|base|..] == parts;
    JoinSplit(moduleName, '.');
  }

  lemma EmptyModulePath(base: Path)
    ensures ModulePath(base, "") == base
  {
    assert IndexOf("", '.') == -1;
    assert Split("", '.') == [""];
  }

  /** The directory a relative import starts from: the importing file's directory, ascended `level - 1` more times. */
  function RelativeStart(fromFile: Path, level: nat): Path {
    Ascend(Parent(fromFile), if level == 0 then 0 else level - 1)
  }

  /** For a file deep enough, a relative import of level N starts at the file's path with its last N components dropped. */
  lemma RelativeStartDrops(fromFile: Path, level: nat)
    requires 0 < level <= |fromFile|
    ensures RelativeStart(fromFile, level) == fromFile[..|fromFile| - level]
  {
    AscendDropsComponents(Parent(fromFile), level - 1);
  }

  /** Level 1 means the importing file's own directory. */
  lemma LevelOneIsSameDirectory(fromFile: Path)
    ensures RelativeStart(fromFile, 1) == Parent(fromFile)
  {
  }

  /** `resolve_relative_import` as written, raising when the start directory is the root and the module name is empty. */
  function ResolveRelativeAsWritten(fs: FileSystem, info: ImportInfo, fromFile: Path): Attempt<Option<Path>> {
    FindModuleFileAsWritten(fs, ModulePath(RelativeStart(fromFile, info.level), info.moduleName))
  }

  /** `resolve_relative_import` on the corrected lookup. */
  function ResolveRelative(fs: FileSystem, info: ImportInfo, fromFile: Path): (r: Option<Path>)
    ensures r.Some? ==> r.value in fs
  {
    FindModuleFile(fs, ModulePath(RelativeStart(fromFile, info.level), info.moduleName))
  }

  /**
    A script at the top of the filesystem with `from . import x`: the written
    lookup raises on the root, the corrected one finds the root directory.
  */
  lemma RootRelativeImportRaises()
    ensures var fs := map[[] := Dir, ["a.py"] := File(Unreadable)];
      var info := ImportInfo("", ["x"], true, 1, 1);
      && ResolveRelativeAsWritten(fs, info, ["a.py"]).RaisedValueError?
      && ResolveRelative(fs, info, ["a.py"]) == Some([])
  {
    var fs := map[[] := Dir, ["a.py"] := File(Unreadable)];
    var start := RelativeStart(["a.py"], 1);
    assert start == [];
    EmptyModulePath(start);
    assert !IsFile(fs, [PackageMarker]);
  }

  /** A dynamic target holding `/` is parsed by pathlib: `pkg/mod` under the root `/b` is the module file `/b/pkg/mod.py`. */
  lemma SlashedModuleName()
    ensures var fs := map[["b"] := Dir, ["b", "pkg"] := Dir, ["b", "pkg", "mod.py"] := File(Unreadable)];
      ResolveAbsolute(fs, "pkg/mod", [["b"]]) == Some(["b", "pkg", "mod.py"])
  {
    var fs := map[["b"] := Dir, ["b", "pkg"] := Dir, ["b", "pkg", "mod.py"] := File(Unreadable)];
    SlashedModulePath();
    ModFileBeside();
    assert RootLookup(fs, ["b"], "pkg/mod") == Some(["b", "pkg", "mod.py"]);
  }

  lemma SlashedModulePath()
    ensures ModulePath(["b"], "pkg/mod") == ["b", "pkg", "mod"]
  {
    SplitWithoutSeparator("pkg/mod", '.');
    SlashedComponents();
    assert !StartsAtRoot("pkg/mod");
    var q := Child(["b"], "pkg/mod");
    assert q == ["b"] + ["pkg", "mod"];
    assert Join(["b"], ["pkg/mod"]) == Join(q, []);
  }

  lemma SlashedComponents()
    ensures Components("pkg/mod") == ["pkg", "mod"]
  {
    SlashedPieces();
    PlainPiecesKept();
    assert "pkg/mod"[3] == '/';
  }

  lemma SlashedPieces()
    ensures Split("pkg/mod", '/') == ["pkg", "mod"]
  {
    var s := "pkg/mod";
    assert s[0] != '/' && s[1] != '/' && s[2] != '/' && s[3] == '/';
    assert IndexOf(s, '/') == 3;
    assert s[..3] == "pkg" && s[4..] == "mod";
    SplitWithoutSeparator("mod", '/');
  }

  lemma PlainPiecesKept()
    ensures KeptPieces(["pkg", "mod"]) == ["pkg", "mod"]
  {
    var pieces := ["pkg", "mod"];
    assert pieces[0] != "" && pieces[0] != "." && pieces[1] != "" && pieces[1] != ".";
  }

  lemma ModFileBeside()
    ensures SiblingModuleFile(["b", "pkg", "mod"]) == Some(["b", "pkg", "mod.py"])
  {
    var p: Path := ["b", "pkg", "mod"];
    assert BaseName(p) == "mod" && Parent(p) == ["b", "pkg"];
    WithPySuffixOfPlainName(p);
    assert "mod" + ".py" == "mod.py";
    assert Parent(p) + [BaseName(p) + ".py"] == ["b", "pkg", "mod.py"];
  }

  /** A dotted part that starts with `/` starts again at the root, leaving the search root. */
  lemma AbsolutePartRestarts()
    ensures ModulePath(["b"], "/etc") == ["etc"]
  {
    SplitWithoutSeparator("/etc", '.');
    RootedComponents();
    assert StartsAtRoot("/etc");
    assert Join(["b"], ["/etc"]) == Join(["etc"], []);
  }

  lemma RootedComponents()
    ensures Components("/etc") == ["etc"]
  {
    RootedPieces();
    assert KeptPieces(["", "etc"]) == KeptPieces(["etc"]);
    assert KeptPieces(["etc"]) == ["etc"] by {
      assert ["etc"][0] != "" && ["etc"][0] != ".";
    }
    assert "/etc"[0] == '/';
  }

  lemma RootedPieces()
    ensures Split("/etc", '/') == ["", "etc"]
  {
    var s := "/etc";
    assert s[0] == '/';
    assert IndexOf(s, '/') == 0;
    assert s[..0] == "" && s[1..] == "etc";
    SplitWithoutSeparator("etc", '/');
  }

  /** What one search root yields: nothing when the root does not exist, else the lookup of the module under it. */
  function RootLookup(fs: FileSystem, root: Path, moduleName: string): Option<Path> {
    if Exists(fs, root) then FindModuleFile(fs, ModulePath(root, moduleName)) else None
  }

  /** The first present value of a sequence of optional values. */
  function FirstSome<T>(s: seq<Option<T>>): (r: Option<T>)
    ensures r.None? <==> forall k :: 0 <= k < |s| ==> s[k].None?
    ensures r.Some? ==> exists k :: 0 <= k < |s| && s[k] == r && forall j :: 0 <= j < k ==> s[j].None?
    decreases |s|
  {
    if |s| == 0 then None
    else if s[0].Some? then s[0]
    else
      var r := FirstSome(s[1..]);
      assert forall k :: 0 < k < |s| ==> s[k] == s[1..][k - 1];
      r
  }

  /** A present value in a prefix hides everything after it. */
  lemma {:induction false} FirstSomePrefix<T>(a: seq<Option<T>>, b: seq<Option<T>>)
    requires exists k :: 0 <= k < |a| && a[k].Some?
    ensures FirstSome(a + b) == FirstSome(a)
    decreases |a|
  {
    assert (a + b)[0] == a[0];
    if a[0].None? {
      var k :| 0 <= k < |a| && a[k].Some?;
      assert a[1..][k - 1] == a[k];
      assert (a + b)[1..] == a[1..] + b;
      FirstSomePrefix(a[1..], b);
    }
  }

  /** Each search root's lookup, in search order. */
  function Lookups(fs: FileSystem, moduleName: string, roots: seq<Path>): (r: seq<Option<Path>>)
    ensures |r| == |roots|
    ensures forall k :: 0 <= k < |roots| && !Exists(fs, roots[k]) ==> r[k].None?
    ensures forall k :: 0 <= k < |roots| && r[k].Some? ==> r[k].value in fs
  {
    seq(|roots|, k requires 0 <= k < |roots| => RootLookup(fs, roots[k], moduleName))
  }

  /** `resolve_absolute_import`: the match under the first existing root that yields one; later roots are never consulted. */
  function ResolveAbsolute(fs: FileSystem, moduleName: string, roots: seq<Path>): (r: Option<Path>)
    ensures r.None? <==> forall k :: 0 <= k < |roots| ==> Lookups(fs, moduleName, roots)[k].None?
    ensures r.Some? ==> exists k :: (0 <= k < |roots| && r == Lookups(fs, moduleName, roots)[k]
                                     && forall j :: 0 <= j < k ==> Lookups(fs, moduleName, roots)[j].None?)
  {
    FirstSome(Lookups(fs, moduleName, roots))
  }

  /** Looking up under two lists of roots is looking up under each in turn. */
  lemma LookupsAppend(fs: FileSystem, moduleName: string, roots: seq<Path>, more: seq<Path>)
    ensures Lookups(fs, moduleName, roots + more) == Lookups(fs, moduleName, roots) + Lookups(fs, moduleName, more)
  {
    var a, b, c := Lookups(fs, moduleName, roots), Lookups(fs, moduleName, more), Lookups(fs, moduleName, roots + more);
    forall i | 0 <= i < |c|
      ensures c[i] == (a + b)[i]
    {
      if i < |roots| {
        assert (roots + more)[i] == roots[i];
      } else {
        assert (roots + more)[i] == more[i - |roots|];
      }
    }
  }

  /** Roots after the first hit do not matter. */
  lemma LaterRootsIgnored(fs: FileSystem, moduleName: string, roots: seq<Path>, more: seq<Path>)
    requires exists k :: 0 <= k < |roots| && RootLookup(fs, roots[k], moduleName).Some?
    ensures ResolveAbsolute(fs, moduleName, roots + more) == ResolveAbsolute(fs, moduleName, roots)
  {
    var a, b := Lookups(fs, moduleName, roots), Lookups(fs, moduleName, more);
    var k :| 0 <= k < |roots| && RootLookup(fs, roots[k], moduleName).Some?;
    assert a[k].Some?;
    LookupsAppend(fs, moduleName, roots, more);
    FirstSomePrefix(a, b);
  }

  /** `resolve_import`: dispatch on the level; a relative import never looks at the search paths. */
  function ResolveImport(fs: FileSystem, info: ImportInfo, fromFile: Path, searchPaths: seq<Path>): (r: Option<Path>)
    ensures info.level > 0 ==> r == ResolveRelative(fs, info, fromFile)
    ensures info.level == 0 ==> r == ResolveAbsolute(fs, info.moduleName, searchPaths)
    ensures r.Some? ==> r.value in fs
  {
    if info.level > 0 then ResolveRelative(fs, info, fromFile)
    else ResolveAbsolute(fs, info.moduleName, searchPaths)
  }

  /** A path lies under one of the roots: `relative_to` succeeds for some root. */
  predicate UnderSomeRoot(p: Path, roots: set<Path>) {
    exists root :: root in roots && IsAncestor(root, p)
  }

  /** `is_stdlib_path` and `is_site_packages_path`: try each root in turn until one is an ancestor. */
  method IsUnderRoots(p: Path, roots: set<Path>) returns (b: bool)
    ensures b <==> UnderSomeRoot(p, roots)
  {
    var remaining := roots;
    while remaining != {}
      invariant remaining <= roots
      invariant forall root :: root in roots - remaining ==> !IsAncestor(root, p)
      decreases remaining
    {
      var root :| root in remaining;
      if |root| <= |p| && p[..|root|] == root {
        return true;
      }
      remaining := remaining - {root};
    }
    return false;
  }
}

=== FILE: syntax.dfy ===
/**
  The part of a parsed Python module the extractors look at. `ast.parse` and
  `ast.walk` are not modelled: a parse outcome is either the syntax error or the
  nodes in the order the walk yields them.
*/
module Syntax {
  import opened Wrappers

  /** The value of an `ast.Constant`; `OtherConst` carries the `repr` of floats, bytes and the like. */
  datatype Constant =
    | StrConst(s: string)
    | IntConst(i: int)
    | BoolConst(b: bool)
    | NoneConst
    | OtherConst(repr: string)

  /** Expressions as far as the extractors distinguish them; everything else is `OtherExpr`. */
  datatype Expr =
    | Name(id: string)
    | Attribute(value: Expr, attr: string)
    | Const(c: Constant)
    | OtherExpr

  /** `ast.alias`: the imported dotted name and its optional `as` name. */
  datatype Alias = Alias(name: string, asname: Option<string>)

  /** The walked nodes that matter; `args` are the positional arguments only. */
  datatype Node =
    | ImportNode(names: seq<Alias>, lineno: int)
    | ImportFromNode(moduleName: Option<string>, names: seq<Alias>, level: nat, lineno: int)
    | CallNode(func: Expr, args: seq<Expr>, lineno: int)
    | OtherNode

  datatype ParseOutcome =
    | SyntaxError(message: string, lineno: Option<int>)
    | Parsed(nodes: seq<Node>)

  /** The string value of the first positional argument, when it is a `str` constant. */
  function FirstStringArg(args: seq<Expr>): (r: Option<string>)
    ensures r.Some? <==> |args| > 0 && args[0].Const? && args[0].c.StrConst?
    ensures r.Some? ==> args[0] == Const(StrConst(r.value))
  {
    if |args| > 0 && args[0].Const? && args[0].c.StrConst? then Some(args[0].c.s) else None
  }

  /** Decimal digits of a natural number. */
  function NatToString(n: nat): (r: string)
    ensures |r| > 0
    ensures forall k :: 0 <= k < |r| ==> '0' <= r[k] <= '9'
    decreases n
  {
    var d := [(('0' as int) + n % 10) as char];
    if n < 10 then d else NatToString(n / 10) + d
  }

  /** A lower-case hexadecimal digit. */
  function HexDigit(n: int): (ch: char)
    requires 0 <= n < 16
    ensures IsHexDigit(ch) && HexValue(ch) == n
  {
    if n < 10 then (('0' as int) + n) as char else (('a' as int) + n - 10) as char
  }

  predicate IsHexDigit(ch: char) {
    ('0' <= ch <= '9') || ('a' <= ch <= 'f') || ('A' <= ch <= 'F')
  }

  function HexValue(ch: char): (n: int)
    requires IsHexDigit(ch)
    ensures 0 <= n < 16
  {
    if '0' <= ch <= '9' then ch as int - '0' as int
    else if 'a' <= ch <= 'f' then ch as int - 'a' as int + 10
    else ch as int - 'A' as int + 10
  }

  /**
    The characters up to U+00FF that `repr` writes as `\xNN`: the C0 controls
    other than tab, newline and carriage return, DEL, the C1 controls, the
    no-break space and the soft hyphen.
  */
  predicate HexEscaped(ch: char) {
    ch as int < 0x20 || 0x7f <= ch as int <= 0xa0 || ch as int == 0xad
  }

  /** The escape Python's `repr` writes for one character of a string quoted with `quote`. */
  function EscapeChar(ch: char, quote: char): string {
    if ch == '\\' then "\\\\"
    else if ch == quote then ['\\', quote]
    else if ch == '\n' then "\\n"
    else if ch == '\r' then "\\r"
    else if ch == '\t' then "\\t"
    else if HexEscaped(ch) then ['\\', 'x', HexDigit(ch as int / 16), HexDigit(ch as int % 16)]
    else [ch]
  }

  function EscapeAll(s: string, quote: char): string
    decreases |s|
  {
    if |s| == 0 then "" else EscapeChar(s[0], quote) + EscapeAll(s[1..], quote)
  }

  /** Python's `repr` of a `str`: double quotes only when the text has a single quote and no double quote. */
  function StrRepr(s: string): (r: string)
    ensures |r| >= 2 && r[0] == r[|r| - 1] && (r[0] == '\'' || r[0] == '"')
    ensures r[0] == '"' <==> '\'' in s && '"' !in s
    ensures ReadStrLiteral(r) == Some(s)
  {
    var quote := if '\'' in s && '"' !in s then '"' else '\'';
    var r := [quote] + EscapeAll(s, quote) + [quote];
    assert r[1..|r| - 1] == EscapeAll(s, quote);
    EscapeAllReadsBack(s, quote);
    r
  }

  /**
    Reads a single-line Python string literal without prefix back to its text:
    the quotes must match, the body may not hold the quote, a newline or a
    carriage return unescaped, and only the escapes `repr` writes are accepted.
  */
  function ReadStrLiteral(r: string): Option<string> {
    if |r| >= 2 && r[0] == r[|r| - 1] && (r[0] == '\'' || r[0] == '"') then Unescape(r[1..|r| - 1], r[0])
    else None
  }

  /** Decodes the body of a literal quoted with `quote`. */
  function Unescape(t: string, quote: char): Option<string>
    decreases |t|
  {
    if |t| == 0 then Some("")
    else if t[0] == '\\' then
      if |t| < 2 then None
      else if t[1] == '\\' || t[1] == '\'' || t[1] == '"' then Prepend(t[1], Unescape(t[2..], quote))
      else if t[1] == 'n' then Prepend('\n', Unescape(t[2..], quote))
      else if t[1] == 'r' then Prepend('\r', Unescape(t[2..], quote))
      else if t[1] == 't' then Prepend('\t', Unescape(t[2..], quote))
      else if t[1] == 'x' && |t| >= 4 && IsHexDigit(t[2]) && IsHexDigit(t[3]) then
        Prepend((HexValue(t[2]) * 16 + HexValue(t[3])) as char, Unescape(t[4..], quote))
      else None
    else if t[0] == quote || t[0] == '\n' || t[0] == '\r' then None
    else Prepend(t[0], Unescape(t[1..], quote))
  }

  function Prepend(ch: char, r: Option<string>): Option<string> {
    if r.Some? then Some([ch] + r.value) else None
  }

  /** One escaped character, followed by any body, decodes to that character in front of the body's decoding. */
  lemma EscapeCharReadsBack(ch: char, quote: char, rest: string)
    requires quote == '\'' || quote == '"'
    ensures Unescape(EscapeChar(ch, quote) + rest, quote) == Prepend(ch, Unescape(rest, quote))
  {
    var t := EscapeChar(ch, quote) + rest;
    if ch == '\\' || ch == quote || ch == '\n' || ch == '\r' || ch == '\t' {
      assert t[2..] == rest;
    } else if HexEscaped(ch) {
      var hi, lo := ch as int / 16, ch as int % 16;
      assert t[2] == HexDigit(hi) && t[3] == HexDigit(lo);
      assert (hi * 16 + lo) as char == ch;
      assert t[4..] == rest;
    } else {
      assert t[1..] == rest;
    }
  }

  /** `repr`'s escaping decodes back to the text. */
  lemma {:induction false} EscapeAllReadsBack(s: string, quote: char)
    requires quote == '\'' || quote == '"'
    ensures Unescape(EscapeAll(s, quote), quote) == Some(s)
    decreases |s|
  {
    if |s| > 0 {
      EscapeAllReadsBack(s[1..], quote);
      EscapeCharReadsBack(s[0], quote, EscapeAll(s[1..], quote));
      assert [s[0]] + s[1..] == s;
    }
  }

  /** Python's `repr` of a constant. */
  function Repr(c: Constant): string {
    match c
    case StrConst(s) => StrRepr(s)
    case IntConst(i) => if i < 0 then "-" + NatToString(-i) else NatToString(i)
    case BoolConst(b) => if b then "True" else "False"
    case NoneConst => "None"
    case OtherConst(r) => r
  }
}

=== FILE: tracer.dfy ===
/**
  The traversal (`tracer.py`): emitting files into the trace, following their
  imports depth-first, and the inclusion policy.
*/
module Tracer {
  import opened Wrappers
  import opened Paths
  import opened Syntax
  import opened Fs
  import opened Analyzer
  import opened Resolver
  import opened Types

  /**
    What a `Tracer` takes from the running interpreter: the working directory,
    `sys.path` (`None` stands for the "" entry), and the standard-library and
    site-packages roots that `sysconfig` reports.
  */
  datatype Environment = Environment(cwd: Path, sysPath: seq<Option<Path>>, stdlibRoots: set<Path>, sitePackagesRoots: set<Path>)

  /**
    Everything a `Tracer` consults but never changes. `matches(name, pattern)`
    stands for `fnmatch.fnmatch`; `resolve` and `importsOf` are the functions
    `tracer.py` calls in its sibling modules (`resolve_import` with the
    tracer's search paths, and the import extraction of `_process_imports`).
    `Trace` binds them to `ResolveImport` and `ImportsOf`.
  */
  datatype Context = Context(
    fs: FileSystem,
    options: TraceOptions,
    env: Environment,
    matches: (string, string) -> bool,
    searchPaths: seq<Path>,
    resolve: (ImportInfo, Path) -> Option<Path>,
    importsOf: Path -> seq<ImportInfo>)

  /**
    The fields a `Tracer` updates while tracing. `expanded` is not a field of the
    source: it records, in order, each file whose imports were read.
  */
  datatype TraceState = TraceState(
    fileList: set<Path>,
    reasons: map<Path, FileReason>,
    warnings: seq<string>,
    processed: set<Path>,
    expanded: seq<Path>)

  /** The state of a fresh `Tracer`. */
  const InitialState := TraceState({}, map[], [], {}, [])

  predicate NoDup<T(==)>(s: seq<T>) {
    forall i, j :: 0 <= i < j < |s| ==> s[i] != s[j]
  }

  // ---------------------------------------------------------------------------
  // Inclusion policy

  /** One ignore pattern matches the full path string or the file name. */
  predicate IgnoredBy(c: Context, p: Path, pattern: string) {
    c.matches(Render(p), pattern) || c.matches(BaseName(p), pattern)
  }

  /** Some pattern of `patterns` matches. */
  predicate IgnoredByAny(c: Context, p: Path, patterns: seq<string>)
    decreases |patterns|
  {
    |patterns| > 0 && (IgnoredBy(c, p, patterns[0]) || IgnoredByAny(c, p, patterns[1..]))
  }

  /** An ignore pattern of the options matches. */
  predicate Ignored(c: Context, p: Path) {
    IgnoredByAny(c, p, c.options.ignore)
  }

  /** The pattern list is ignored exactly when one of its patterns matches. */
  lemma {:induction false} IgnoredBySomePattern(c: Context, p: Path, patterns: seq<string>)
    ensures IgnoredByAny(c, p, patterns) <==> exists k :: 0 <= k < |patterns| && IgnoredBy(c, p, patterns[k])
    decreases |patterns|
  {
    if |patterns| > 0 {
      IgnoredBySomePattern(c, p, patterns[1..]);
      if exists k :: 0 <= k < |patterns| && IgnoredBy(c, p, patterns[k]) {
        var k :| 0 <= k < |patterns| && IgnoredBy(c, p, patterns[k]);
        if k > 0 {
          assert patterns[1..][k - 1] == patterns[k];
        }
      }
      if IgnoredByAny(c, p, patterns[1..]) {
        var k :| 0 <= k < |patterns[1..]| && IgnoredBy(c, p, patterns[1..][k]);
        assert patterns[k + 1] == patterns[1..][k];
      }
    }
  }

  /** Ignore patterns veto; otherwise the standard library and site-packages follow their switches, and everything else is in. */
  ghost predicate Included(c: Context, p: Path) {
    && !Ignored(c, p)
    && (if UnderSomeRoot(p, c.env.stdlibRoots) then c.options.includeStdlib
        else if UnderSomeRoot(p, c.env.sitePackagesRoots) then c.options.includeSitePackages
        else true)
  }

  /** `_should_ignore`: try the patterns in order, each against the path string and then the name. */
  method ShouldIgnore(c: Context, p: Path) returns (b: bool)
    ensures b <==> exists k :: 0 <= k < |c.options.ignore| && IgnoredBy(c, p, c.options.ignore[k])
    ensures b <==> Ignored(c, p)
  {
    var pathStr := Render(p);
    IgnoredBySomePattern(c, p, c.options.ignore);
    for k := 0 to |c.options.ignore|
      invariant forall j :: 0 <= j < k ==> !IgnoredBy(c, p, c.options.ignore[j])
    {
      var pattern := c.options.ignore[k];
      if c.matches(pathStr, pattern) {
        return true;
      }
      if c.matches(BaseName(p), pattern) {
        return true;
      }
    }
    return false;
  }

  /** `_should_include` */
  method ShouldInclude(c: Context, p: Path) returns (b: bool)
    ensures b <==> Included(c, p)
    ensures Ignored(c, p) ==> !b
    ensures !Ignored(c, p) && UnderSomeRoot(p, c.env.stdlibRoots) ==> b == c.options.includeStdlib
  {
    var ignored := ShouldIgnore(c, p);
    if ignored {
      return false;
    }
    var inStdlib := IsUnderRoots(p, c.env.stdlibRoots);
    if inStdlib {
      return c.options.includeStdlib;
    }
    var inSitePackages := IsUnderRoots(p, c.env.sitePackagesRoots);
    if inSitePackages {
      return c.options.includeSitePackages;
    }
    return true;
  }

  /** Under the default options exactly the standard library is left out. */
  lemma DefaultPolicy(c: Context, p: Path)
    requires c.options == DefaultOptions
    ensures Included(c, p) <==> !UnderSomeRoot(p, c.env.stdlibRoots)
  {
  }

  /** An ignore pattern that matches the name excludes the file wherever it lives. */
  lemma IgnoreWins(c: Context, p: Path, k: int)
    requires 0 <= k < |c.options.ignore| && c.matches(BaseName(p), c.options.ignore[k])
    ensures !Included(c, p)
  {
    IgnoredBySomePattern(c, p, c.options.ignore);
  }

  // ---------------------------------------------------------------------------
  // Search paths

  /** The position of the first occurrence of `x` in `s`. */
  function FirstIndex<T(==)>(s: seq<T>, x: T): (i: nat)
    requires x in s
    ensures i < |s| && s[i] == x && x !in s[..i]
    decreases |s|
  {
    if s[0] == x then 0
    else
      var i := FirstIndex(s[1..], x) + 1;
      assert s[..i] == [s[0]] + s[1..][..i - 1];
      i
  }

  /**
    The search list `_build_search_paths` returns: the base first, then `base/src`
    when it is a directory, then every existing `sys.path` directory not listed
    yet, in the order of its first occurrence in `sys.path`.
  */
  ghost predicate SearchList(fs: FileSystem, base: Path, sysPath: seq<Option<Path>>, paths: seq<Path>) {
    var src := base + ["src"];
    var rest := if IsDir(fs, src) then 2 else 1;
    && |paths| >= rest && paths[0] == base
    && (IsDir(fs, src) ==> paths[1] == src)
    && NoDup(paths)
    && (forall q :: q in paths <==> q == base || (q == src && IsDir(fs, q)) || (Some(q) in sysPath && IsDir(fs, q)))
    && (forall k :: 1 <= k < |paths| ==> IsDir(fs, paths[k]))
    && (forall i :: rest <= i < |paths| ==> Some(paths[i]) in sysPath)
    && (forall i, j :: rest <= i < j < |paths| ==> FirstIndex(sysPath, Some(paths[i])) < FirstIndex(sysPath, Some(paths[j])))
  }

  /** `_build_search_paths` */
  method BuildSearchPaths(fs: FileSystem, base: Path, sysPath: seq<Option<Path>>) returns (paths: seq<Path>)
    ensures SearchList(fs, base, sysPath, paths)
  {
    paths := [base];
    var src := Child(base, "src");
    SrcIsChild(base);
    if IsDir(fs, src) {
      paths := paths + [src];
    }
    SearchPrefixStart(fs, base, sysPath, paths);
    for k := 0 to |sysPath|
      invariant SearchPrefix(fs, base, sysPath, k, paths)
    {
      if sysPath[k].Some? && IsDir(fs, sysPath[k].value) && sysPath[k].value !in paths {
        SearchPrefixAppend(fs, base, sysPath, k, paths);
        paths := paths + [sysPath[k].value];
      } else {
        SearchPrefixSkip(fs, base, sysPath, k, paths);
      }
    }
    SearchListOfPrefix(fs, base, sysPath, paths);
  }

  lemma SrcIsChild(base: Path)
    ensures Child(base, "src") == base + ["src"]
  {
    assert ValidComponent("src");
  }

  /** Before `sys.path` is scanned the list is the base, then `base/src` when it is a directory. */
  lemma SearchPrefixStart(fs: FileSystem, base: Path, sysPath: seq<Option<Path>>, paths: seq<Path>)
    requires paths == if IsDir(fs, base + ["src"]) then [base, base + ["src"]] else [base]
    ensures SearchPrefix(fs, base, sysPath, 0, paths)
  {
    assert sysPath[..0] == [];
  }

  /** Once all of `sys.path` is scanned the list is the search list. */
  lemma SearchListOfPrefix(fs: FileSystem, base: Path, sysPath: seq<Option<Path>>, paths: seq<Path>)
    requires SearchPrefix(fs, base, sysPath, |sysPath|, paths)
    ensures SearchList(fs, base, sysPath, paths)
  {
    assert sysPath[..|sysPath|] == sysPath;
  }

  /** The search list after the first `k` entries of `sys.path` have been scanned. */
  ghost predicate SearchPrefix(fs: FileSystem, base: Path, sysPath: seq<Option<Path>>, k: int, paths: seq<Path>)
    requires 0 <= k <= |sysPath|
  {
    var src := base + ["src"];
    var rest := if IsDir(fs, src) then 2 else 1;
    && |paths| >= rest && paths[0] == base
    && (IsDir(fs, src) ==> paths[1] == src)
    && NoDup(paths)
    && (forall q :: q in paths <==> q == base || (q == src && IsDir(fs, q)) || (Some(q) in sysPath[..k] && IsDir(fs, q)))
    && (forall j :: 1 <= j < |paths| ==> IsDir(fs, paths[j]))
    && (forall i :: rest <= i < |paths| ==> Some(paths[i]) in sysPath[..k])
    && (forall i :: rest <= i < |paths| ==> FirstIndex(sysPath, Some(paths[i])) < k)
    && (forall i, j :: rest <= i < j < |paths| ==> FirstIndex(sysPath, Some(paths[i])) < FirstIndex(sysPath, Some(paths[j])))
  }

  /** Scanning an existing directory not listed yet appends it. */
  lemma SearchPrefixAppend(fs: FileSystem, base: Path, sysPath: seq<Option<Path>>, k: int, paths: seq<Path>)
    requires 0 <= k < |sysPath| && SearchPrefix(fs, base, sysPath, k, paths)
    requires sysPath[k].Some? && IsDir(fs, sysPath[k].value) && sysPath[k].value !in paths
    ensures SearchPrefix(fs, base, sysPath, k + 1, paths + [sysPath[k].value])
  {
    assert sysPath[..k + 1] == sysPath[..k] + [sysPath[k]];
    FirstOccurrenceAt(sysPath, k);
  }

  /** Scanning anything else leaves the list as it is. */
  lemma SearchPrefixSkip(fs: FileSystem, base: Path, sysPath: seq<Option<Path>>, k: int, paths: seq<Path>)
    requires 0 <= k < |sysPath| && SearchPrefix(fs, base, sysPath, k, paths)
    requires !(sysPath[k].Some? && IsDir(fs, sysPath[k].value) && sysPath[k].value !in paths)
    ensures SearchPrefix(fs, base, sysPath, k + 1, paths)
  {
    assert sysPath[..k + 1] == sysPath[..k] + [sysPath[k]];
  }

  /** An element that does not occur before position `k` first occurs at `k`. */
  lemma FirstOccurrenceAt<T>(s: seq<T>, k: int)
    requires 0 <= k < |s| && s[k] !in s[..k]
    ensures FirstIndex(s, s[k]) == k
  {
  }

  // ---------------------------------------------------------------------------
  // What a processed import emits

  /** The imports `_process_imports` handles for a file: the static ones, then (when enabled) the dynamic ones as absolute imports at line 0. */
  function ImportsOf(fs: FileSystem, options: TraceOptions, f: Path): seq<ImportInfo> {
    if !IsFile(fs, f) then []
    else
      var text := fs[f].text;
      AnalyzeFile(text)
      + (if options.followDynamicImports && text.Readable? then DynamicInfos(ExtractDynamicImports(text.tree)) else [])
  }

  /** The synthetic records built for dynamically imported module names. */
  function DynamicInfos(modules: seq<string>): (r: seq<ImportInfo>)
    ensures |r| == |modules|
    ensures forall k :: 0 <= k < |r| ==> r[k].moduleName == modules[k] && r[k].level == 0 && !r[k].isFromImport
    ensures forall k :: 0 <= k < |r| ==> r[k].names == [] && r[k].lineno == 0
  {
    seq(|modules|, k requires 0 <= k < |modules| => ImportInfo(modules[k], [], false, 0, 0))
  }

  /** The file emitted for a resolved path: a directory contributes its `__init__.py` when it has one, anything else itself. */
  function PrimaryFile(fs: FileSystem, resolved: Path): Option<Path> {
    if IsDir(fs, resolved) then
      (if IsFile(fs, Child(resolved, PackageMarker)) then Some(Child(resolved, PackageMarker)) else None)
    else Some(resolved)
  }

  /** How an emitted import target is labelled: a package marker is a package, anything else an import. */
  function TargetKind(t: Path): FileType {
    if BaseName(t) == PackageMarker then Package else Import
  }

  /** The package directory whose submodules `from X import a` may name; `None` for a plain module file. */
  function PackageDirOf(fs: FileSystem, resolved: Path): Option<Path> {
    if IsFile(fs, resolved) then
      (if BaseName(resolved) == PackageMarker then Some(Parent(resolved)) else None)
    else Some(resolved)
  }

  function SubmoduleFile(dir: Path, name: string): Path {
    Child(dir, name + ".py")
  }

  function SubpackageInit(dir: Path, name: string): Path {
    Child(Child(dir, name), PackageMarker)
  }

  /** The module name recorded for a submodule found through `from X import name`. */
  function SubmoduleName(moduleName: string, name: string): string {
    if moduleName != "" then moduleName + "." + name else name
  }

  /** The existing submodule files and subpackage markers named by a `from` import. */
  function SubmoduleTargets(fs: FileSystem, dir: Path, names: seq<string>): set<Path> {
    (set n | n in names && n != "*" && IsFile(fs, SubmoduleFile(dir, n)) :: SubmoduleFile(dir, n))
    + (set n | n in names && n != "*" && IsFile(fs, SubpackageInit(dir, n)) :: SubpackageInit(dir, n))
  }

  /** Every file processing one import may emit, with `from` as its parent. */
  function ImportTargets(c: Context, info: ImportInfo, from: Path): set<Path> {
    match c.resolve(info, from)
    case None => {}
    case Some(r) =>
      (if PrimaryFile(c.fs, r).Some? then {PrimaryFile(c.fs, r).value} else {})
      + (if info.isFromImport && |info.names| > 0 && PackageDirOf(c.fs, r).Some?
         then SubmoduleTargets(c.fs, PackageDirOf(c.fs, r).value, info.names) else {})
  }

  /** `t` is a file the imports of `f` lead to directly: an edge of the import graph. */
  ghost predicate Edge(c: Context, f: Path, t: Path) {
    exists info :: info in c.importsOf(f) && t in ImportTargets(c, info, f)
  }

  /** A target of one import of `f` is an edge out of `f`. */
  lemma ImportTargetIsEdge(c: Context, info: ImportInfo, f: Path, t: Path)
    requires info in c.importsOf(f) && t in ImportTargets(c, info, f)
    ensures Edge(c, f, t)
  {
  }

  /** The resolver only answers with paths that exist. */
  ghost predicate ResolvesIntoFs(c: Context) {
    forall info, from :: c.resolve(info, from).Some? ==> c.resolve(info, from).value in c.fs
  }

  /** With a resolver that answers only existing paths, every import target is an existing file. */
  lemma TargetsAreFiles(c: Context, f: Path, t: Path)
    requires ResolvesIntoFs(c) && Edge(c, f, t)
    ensures IsFile(c.fs, t)
  {
    var info :| info in c.importsOf(f) && t in ImportTargets(c, info, f);
    var r := c.resolve(info, f).value;
    assert r in c.fs;
    if PrimaryFile(c.fs, r) == Some(t) {
      assert IsDir(c.fs, r) || IsFile(c.fs, t);
    } else {
      assert t in SubmoduleTargets(c.fs, PackageDirOf(c.fs, r).value, info.names);
    }
  }

  /** The warning recorded for an import that resolves to nothing; a relative import is shown with its dots. */
  function UnresolvedWarning(info: ImportInfo, from: Path): string {
    var shown := if info.level > 0 then Dots(info.level) + info.moduleName else info.moduleName;
    "Could not resolve import '" + shown + "' in " + Render(from)
  }

  function Dots(n: nat): (r: string)
    ensures |r| == n && forall k :: 0 <= k < n ==> r[k] == '.'
  {
    seq(n, _ => '.')
  }

  /** The number of dots a string starts with. */
  function LeadingDots(s: string): (n: nat)
    ensures n <= |s|
    ensures forall k :: 0 <= k < n ==> s[k] == '.'
    ensures n < |s| ==> s[n] != '.'
    decreases |s|
  {
    if |s| > 0 && s[0] == '.' then 1 + LeadingDots(s[1..]) else 0
  }

  /** `n` dots before a name that does not start with a dot read back as `n`. */
  lemma {:induction false} LeadingDotsOfDots(n: nat, name: string)
    requires name == "" || name[0] != '.'
    ensures LeadingDots(Dots(n) + name) == n
    decreases n
  {
    if n > 0 {
      assert (Dots(n) + name)[1..] == Dots(n - 1) + name;
      LeadingDotsOfDots(n - 1, name);
    } else {
      assert Dots(n) + name == name;
    }
  }

  /**
    The warning reads back: between the opening quote and the closing quote
    before the file is the module name, after exactly `level` dots for a
    relative import.
  */
  lemma UnresolvedWarningReadsBack(info: ImportInfo, from: Path)
    ensures var w := UnresolvedWarning(info, from);
      var prefix := "Could not resolve import '";
      var suffix := "' in " + Render(from);
      && |w| >= |prefix| + |suffix|
      && w[..|prefix|] == prefix
      && w[|w| - |suffix|..] == suffix
      && var shown := w[|prefix|..|w| - |suffix|];
         && (info.level == 0 ==> shown == info.moduleName)
         && (info.level > 0 && (info.moduleName == "" || info.moduleName[0] != '.') ==>
               LeadingDots(shown) == info.level && shown[info.level..] == info.moduleName)
  {
    var prefix := "Could not resolve import '";
    var suffix := "' in " + Render(from);
    var shown := if info.level > 0 then Dots(info.level) + info.moduleName else info.moduleName;
    var w := UnresolvedWarning(info, from);
    assert w == prefix + shown + suffix;
    assert w[..|prefix|] == prefix;
    assert w[|w| - |suffix|..] == suffix;
    assert w[|prefix|..|w| - |suffix|] == shown;
    if info.level > 0 && (info.moduleName == "" || info.moduleName[0] != '.') {
      LeadingDotsOfDots(info.level, info.moduleName);
      assert shown[info.level..] == info.moduleName;
    }
  }

  // ---------------------------------------------------------------------------
  // State invariants

  /** The bookkeeping the tracer keeps consistent between calls. */
  ghost predicate Valid(c: Context, st: TraceState) {
    && st.fileList == st.processed
    && st.processed <= st.reasons.Keys
    && (forall p :: p in st.reasons ==> (st.reasons[p].ignored <==> p !in st.processed))
    && (forall p :: p in st.reasons ==> (p in st.processed <==> Included(c, p)))
    && NoDup(st.expanded)
    && (forall q :: q in st.expanded <==> q in st.processed && IsPyFile(c.fs, q))
  }

  /** A Python source file: `path.suffix == ".py" and path.is_file()`. */
  predicate IsPyFile(fs: FileSystem, p: Path) {
    IsFile(fs, p) && Suffix(BaseName(p)) == ".py"
  }

  /**
    Every file without parents entered as an initial file, every parent link
    is an import edge out of a file whose imports were read, and every warning
    reports an import of such a file that resolves to nothing.
  */
  ghost predicate Sound(c: Context, st: TraceState) {
    && (forall p :: p in st.reasons && st.reasons[p].parents == {} ==> st.reasons[p].kind.Initial?)
    && (forall p, q :: p in st.reasons && q in st.reasons[p].parents ==> q in st.expanded && Edge(c, q, p))
    && WarningsJustified(c, st.warnings, st.expanded)
  }

  /** Every warning reports an import, of a file in `expanded`, that resolves to nothing. */
  ghost predicate WarningsJustified(c: Context, warnings: seq<string>, expanded: seq<Path>) {
    forall w :: w in warnings ==> WarningOk(c, expanded, w)
  }

  /** `w` is the warning for an import, of a file in `expanded`, that resolves to nothing. */
  ghost predicate WarningOk(c: Context, expanded: seq<Path>, w: string) {
    exists f, info :: f in expanded && info in c.importsOf(f) && c.resolve(info, f).None? && w == UnresolvedWarning(info, f)
  }

  /** An emission the soundness invariant allows: an initial file, or an import edge out of an expanded file. */
  ghost predicate EdgeOk(c: Context, st: TraceState, path: Path, kind: FileType, parent: Option<Path>) {
    && (parent.None? ==> kind.Initial?)
    && (parent.Some? ==> parent.value in st.expanded && Edge(c, parent.value, path))
  }

  /** A later reason keeps the earlier one's label, flag and module name, and its parents. */
  ghost predicate Extends(r: FileReason, r': FileReason) {
    r'.kind == r.kind && r'.ignored == r.ignored && r'.moduleName == r.moduleName && r.parents <= r'.parents
  }

  /** Nothing recorded is ever lost or relabelled. */
  ghost predicate Grows(st: TraceState, st': TraceState) {
    && st.processed <= st'.processed
    && st.fileList <= st'.fileList
    && st.warnings <= st'.warnings
    && st.expanded <= st'.expanded
    && (forall p :: p in st.reasons ==> p in st'.reasons && Extends(st.reasons[p], st'.reasons[p]))
  }

  /** New reasons, outside `except`, are never labelled initial. */
  ghost predicate FreshNotInitial(st: TraceState, st': TraceState, except: set<Path>) {
    forall p :: p in st'.reasons && p !in st.reasons && p !in except ==> !st'.reasons[p].kind.Initial?
  }

  /** The paths an emission of `path` with label `kind` may newly record as initial. */
  function InitialExcept(path: Path, kind: FileType): set<Path> {
    if kind.Initial? then {path} else {}
  }

  /** `t` is recorded with `f` among its parents. */
  ghost predicate Linked(reasons: map<Path, FileReason>, t: Path, f: Path) {
    t in reasons && f in reasons[t].parents
  }

  /** Every target of one import of `from` is recorded with `from` as a parent. */
  ghost predicate ImportDone(c: Context, reasons: map<Path, FileReason>, info: ImportInfo, from: Path) {
    forall t :: t in ImportTargets(c, info, from) ==> Linked(reasons, t, from)
  }

  /** Every import of `f` is done. */
  ghost predicate Closed(c: Context, reasons: map<Path, FileReason>, f: Path) {
    forall info :: info in c.importsOf(f) ==> ImportDone(c, reasons, info, f)
  }

  /** Every file expanded between the two states is closed. */
  ghost predicate NewlyClosed(c: Context, st: TraceState, st': TraceState) {
    forall f :: f in st'.expanded && f !in st.expanded ==> Closed(c, st'.reasons, f)
  }

  /** What every traversal step keeps: consistent bookkeeping, nothing lost, no new initial file, and without a depth limit every newly expanded file closed. */
  ghost predicate Step(c: Context, st: TraceState, st': TraceState) {
    && Valid(c, st')
    && Grows(st, st')
    && FreshNotInitial(st, st', {})
    && (c.options.maxDepth.None? ==> NewlyClosed(c, st, st'))
  }

  /** `_emit_file` returns at once when the nesting depth exceeds `max_depth`. */
  predicate TooDeep(c: Context, depth: int) {
    c.options.maxDepth.Some? && depth > c.options.maxDepth.value
  }

  function WithParent(r: FileReason, parent: Option<Path>): FileReason {
    if parent.Some? then r.AddParent(parent.value) else r
  }

  // ---------------------------------------------------------------------------
  // Facts about the invariants

  /** A closed file has every import edge out of it recorded. */
  lemma ClosedEdges(c: Context, reasons: map<Path, FileReason>, f: Path, t: Path)
    requires Closed(c, reasons, f) && Edge(c, f, t)
    ensures Linked(reasons, t, f)
  {
    var info :| info in c.importsOf(f) && t in ImportTargets(c, info, f);
    assert ImportDone(c, reasons, info, f);
  }

  lemma PrefixMember<T>(a: seq<T>, b: seq<T>, x: T)
    requires a <= b && x in a
    ensures x in b
  {
    var i :| 0 <= i < |a| && a[i] == x;
    assert b[i] == x;
  }

  /** Growth keeps links, closed files and expanded files. */
  lemma GrowsKeeps(c: Context, a: TraceState, b: TraceState)
    requires Grows(a, b)
    ensures forall t, f :: Linked(a.reasons, t, f) ==> Linked(b.reasons, t, f)
    ensures forall f :: Closed(c, a.reasons, f) ==> Closed(c, b.reasons, f)
    ensures forall f :: f in a.expanded ==> f in b.expanded
  {
    forall f | f in a.expanded
      ensures f in b.expanded
    {
      PrefixMember(a.expanded, b.expanded, f);
    }
  }

  lemma StepRefl(c: Context, st: TraceState)
    requires Valid(c, st)
    ensures Step(c, st, st)
  {
  }

  /** Two steps make a step. */
  lemma StepTrans(c: Context, a: TraceState, b: TraceState, d: TraceState)
    requires Step(c, a, b) && Step(c, b, d)
    ensures Step(c, a, d)
    ensures forall t, f :: Linked(a.reasons, t, f) ==> Linked(d.reasons, t, f)
    ensures forall f :: f in a.expanded ==> f in d.expanded
  {
    GrowsKeeps(c, a, b);
    GrowsKeeps(c, b, d);
  }

  /** Growth keeps soundness when everything new is an allowed link. */
  lemma SoundGrows(c: Context, a: TraceState, b: TraceState)
    requires Sound(c, a) && Grows(a, b) && b.warnings == a.warnings
    requires forall p :: p in b.reasons && b.reasons[p].parents == {} ==> p in a.reasons || b.reasons[p].kind.Initial?
    requires forall p, q :: p in b.reasons && q in b.reasons[p].parents && (p !in a.reasons || q !in a.reasons[p].parents) ==>
      q in b.expanded && Edge(c, q, p)
    ensures Sound(c, b)
  {
    GrowsKeeps(c, a, b);
    forall w | w in b.warnings
      ensures WarningOk(c, b.expanded, w)
    {
      var f, info :| f in a.expanded && info in c.importsOf(f) && c.resolve(info, f).None? && w == UnresolvedWarning(info, f);
    }
    forall p | p in b.reasons && b.reasons[p].parents == {}
      ensures b.reasons[p].kind.Initial?
    {
      if p in a.reasons {
        assert a.reasons[p].parents <= b.reasons[p].parents;
      }
    }
  }

  // ---------------------------------------------------------------------------
  // State transitions of `_emit_file`

  /** Records `r`, with `parent` added, as the reason of `path`; nothing else changes. */
  function Relink(st: TraceState, path: Path, r: FileReason, parent: Option<Path>): TraceState {
    st.(reasons := st.reasons[path := WithParent(r, parent)])
  }

  /** Admits an included file: it is listed, marked processed, given its reason, and queued for reading when it is Python source. */
  function Admit(c: Context, st: TraceState, path: Path, r: FileReason, parent: Option<Path>): TraceState {
    var listed := st.(
      fileList := st.fileList + {path},
      reasons := st.reasons[path := WithParent(r, parent)],
      processed := st.processed + {path});
    if IsPyFile(c.fs, path) then listed.(expanded := listed.expanded + [path]) else listed
  }

  /** Revisiting a processed file, or recording an excluded one, keeps the bookkeeping consistent and loses nothing. */
  lemma RelinkKeeps(c: Context, st: TraceState, path: Path, kind: FileType, r: FileReason, parent: Option<Path>)
    requires Valid(c, st)
    requires path in st.reasons ==> r == st.reasons[path]
    requires path !in st.processed ==> !Included(c, path)
    requires path !in st.reasons ==> r.kind == kind && r.ignored && r.parents == {}
    ensures Valid(c, Relink(st, path, r, parent)) && Grows(st, Relink(st, path, r, parent))
    ensures FreshNotInitial(st, Relink(st, path, r, parent), InitialExcept(path, kind))
    ensures NewlyClosed(c, st, Relink(st, path, r, parent))
  {
  }

  /** Recording a link along an allowed edge keeps the trace sound. */
  lemma RelinkSound(c: Context, st: TraceState, path: Path, kind: FileType, r: FileReason, parent: Option<Path>)
    requires Sound(c, st) && EdgeOk(c, st, path, kind, parent)
    requires path in st.reasons ==> r == st.reasons[path]
    requires path !in st.reasons ==> r.kind == kind && r.parents == {}
    ensures Sound(c, Relink(st, path, r, parent))
  {
    SoundGrows(c, st, Relink(st, path, r, parent));
  }

  /** Admitting an included, unrecorded file keeps the bookkeeping consistent and loses nothing. */
  lemma AdmitKeeps(c: Context, st: TraceState, path: Path, kind: FileType, r: FileReason, parent: Option<Path>)
    requires Valid(c, st) && path !in st.processed && Included(c, path)
    requires r.kind == kind && !r.ignored && r.parents == {}
    ensures path !in st.reasons
    ensures Valid(c, Admit(c, st, path, r, parent)) && Grows(st, Admit(c, st, path, r, parent))
    ensures FreshNotInitial(st, Admit(c, st, path, r, parent), InitialExcept(path, kind))
  {
    AdmitGrows(c, st, path, kind, r, parent);
    AdmitExpanded(c, st, path, r, parent);
    AdmitPolicy(c, st, path, r, parent);
  }

  /** An included, unprocessed file has no reason yet, so admitting it only adds. */
  lemma AdmitGrows(c: Context, st: TraceState, path: Path, kind: FileType, r: FileReason, parent: Option<Path>)
    requires Valid(c, st) && path !in st.processed && Included(c, path) && r.kind == kind
    ensures path !in st.reasons
    ensures Grows(st, Admit(c, st, path, r, parent))
    ensures FreshNotInitial(st, Admit(c, st, path, r, parent), InitialExcept(path, kind))
  {
  }

  /** Admission records the policy's verdict for the admitted file. */
  lemma AdmitPolicy(c: Context, st: TraceState, path: Path, r: FileReason, parent: Option<Path>)
    requires Included(c, path)
    requires forall p :: p in st.reasons ==> (p in st.processed <==> Included(c, p))
    ensures var st' := Admit(c, st, path, r, parent);
      forall p :: p in st'.reasons ==> (p in st'.processed <==> Included(c, p))
  {
  }

  /** Admission queues a Python file exactly once. */
  lemma AdmitExpanded(c: Context, st: TraceState, path: Path, r: FileReason, parent: Option<Path>)
    requires NoDup(st.expanded) && path !in st.processed
    requires forall q :: q in st.expanded <==> q in st.processed && IsPyFile(c.fs, q)
    ensures NoDup(Admit(c, st, path, r, parent).expanded)
    ensures forall q :: q in Admit(c, st, path, r, parent).expanded <==> q in Admit(c, st, path, r, parent).processed && IsPyFile(c.fs, q)
  {
    var st' := Admit(c, st, path, r, parent);
    assert path !in st.expanded;
    if IsPyFile(c.fs, path) {
      assert st'.expanded[|st.expanded|] == path;
      forall q
        ensures q in st'.expanded <==> q in st'.processed && IsPyFile(c.fs, q)
      {
        assert q in st'.expanded <==> q in st.expanded || q == path;
      }
    }
  }

  /** Admitting a file along an allowed edge keeps the trace sound. */
  lemma AdmitSound(c: Context, st: TraceState, path: Path, kind: FileType, r: FileReason, parent: Option<Path>)
    requires Sound(c, st) && EdgeOk(c, st, path, kind, parent) && path !in st.reasons
    requires r.kind == kind && r.parents == {}
    ensures Sound(c, Admit(c, st, path, r, parent))
  {
    SoundGrows(c, st, Admit(c, st, path, r, parent));
  }

  /** Reading the imports of a file just admitted keeps what the admission established, and closes the file. */
  lemma ExpandKeeps(c: Context, st: TraceState, st1: TraceState, st': TraceState, path: Path, kind: FileType)
    requires Grows(st, st1) && FreshNotInitial(st, st1, InitialExcept(path, kind))
    requires st1.expanded == st.expanded + [path]
    requires Step(c, st1, st')
    requires c.options.maxDepth.None? ==> Closed(c, st'.reasons, path)
    ensures Grows(st, st') && FreshNotInitial(st, st', InitialExcept(path, kind))
    ensures c.options.maxDepth.None? ==> NewlyClosed(c, st, st')
  {
    GrowsKeeps(c, st1, st');
    assert st.expanded <= st1.expanded;
    if c.options.maxDepth.None? {
      forall f | f in st'.expanded && f !in st.expanded
        ensures Closed(c, st'.reasons, f)
      {
        if f != path {
          assert f !in st1.expanded;
        }
      }
    }
  }

  // ---------------------------------------------------------------------------
  // The traversal

  /**
    `_emit_file`. `depth` is `_current_depth`, which the source increments
    around each nested `_process_imports` call and restores afterwards. The
    measure is the set of files not yet processed, then the position in the
    call chain admit < emit < emit-if-file < submodules < names < resolve-from
    < primary < resolved < import < imports.
  */
  method EmitFile(c: Context, st: TraceState, depth: int, path: Path, kind: FileType, parent: Option<Path>, moduleName: Option<string>)
    returns (st': TraceState)
    requires Valid(c, st)
    ensures Valid(c, st') && Grows(st, st')
    ensures FreshNotInitial(st, st', InitialExcept(path, kind))
    ensures c.options.maxDepth.None? ==> NewlyClosed(c, st, st')
    ensures TooDeep(c, depth) ==> st' == st
    ensures !TooDeep(c, depth) && path in st.processed ==> st' == Relink(st, path, st.reasons[path], parent)
    ensures !TooDeep(c, depth) && path !in st.processed && !Included(c, path) ==>
      st' == Relink(st, path, if path in st.reasons then st.reasons[path] else NewReason(kind, true, moduleName), parent)
    ensures !TooDeep(c, depth) && Included(c, path) ==> path in st'.processed && path in st'.fileList
    ensures !TooDeep(c, depth) ==> path in st'.reasons && (parent.Some? ==> parent.value in st'.reasons[path].parents)
    ensures !TooDeep(c, depth) && path !in st.reasons ==> st'.reasons[path].kind == kind && st'.reasons[path].moduleName == moduleName
    ensures Sound(c, st) && EdgeOk(c, st, path, kind, parent) ==> Sound(c, st')
    decreases c.fs.Keys - st.processed, 1
  {
    if TooDeep(c, depth) {
      return st;
    }
    if path in st.processed {
      RelinkKeeps(c, st, path, kind, st.reasons[path], parent);
      if Sound(c, st) && EdgeOk(c, st, path, kind, parent) {
        RelinkSound(c, st, path, kind, st.reasons[path], parent);
      }
      return Relink(st, path, st.reasons[path], parent);
    }
    var included := ShouldInclude(c, path);
    if !included {
      var r := if path in st.reasons then st.reasons[path] else NewReason(kind, true, moduleName);
      RelinkKeeps(c, st, path, kind, r, parent);
      if Sound(c, st) && EdgeOk(c, st, path, kind, parent) {
        RelinkSound(c, st, path, kind, r, parent);
      }
      return Relink(st, path, r, parent);
    }
    st' := AdmitFile(c, st, depth, path, kind, parent, moduleName);
  }

  /** The admitting branch of `_emit_file`: record an included file, then read its imports when it is Python source. */
  method AdmitFile(c: Context, st: TraceState, depth: int, path: Path, kind: FileType, parent: Option<Path>, moduleName: Option<string>)
    returns (st': TraceState)
    requires Valid(c, st) && path !in st.processed && Included(c, path)
    ensures Valid(c, st') && Grows(st, st')
    ensures FreshNotInitial(st, st', InitialExcept(path, kind))
    ensures c.options.maxDepth.None? ==> NewlyClosed(c, st, st')
    ensures path in st'.processed && path in st'.fileList
    ensures path in st'.reasons && (parent.Some? ==> parent.value in st'.reasons[path].parents)
    ensures path !in st.reasons && st'.reasons[path].kind == kind && st'.reasons[path].moduleName == moduleName
    ensures Sound(c, st) && EdgeOk(c, st, path, kind, parent) ==> Sound(c, st')
    decreases c.fs.Keys - st.processed, 0
  {
    // A recorded file is processed unless it was excluded, so the source's
    // `path_str not in self.reasons` test always holds here.
    var r := NewReason(kind, false, moduleName);
    AdmitKeeps(c, st, path, kind, r, parent);
    if Sound(c, st) && EdgeOk(c, st, path, kind, parent) {
      AdmitSound(c, st, path, kind, r, parent);
    }
    var st1 := Admit(c, st, path, r, parent);
    if IsPyFile(c.fs, path) {
      st' := ProcessImports(c, st1, depth + 1, path);
      ExpandKeeps(c, st, st1, st', path, kind);
    } else {
      st' := st1;
    }
  }

  /** `_process_imports`: each import of the file in turn. */
  method ProcessImports(c: Context, st: TraceState, depth: int, file: Path) returns (st': TraceState)
    requires Valid(c, st)
    ensures Step(c, st, st')
    ensures Sound(c, st) && file in st.expanded ==> Sound(c, st')
    ensures c.options.maxDepth.None? ==> Closed(c, st'.reasons, file)
    decreases c.fs.Keys - st.processed, 9
  {
    var imports := c.importsOf(file);
    StepRefl(c, st);
    st' := st;
    for k := 0 to |imports|
      invariant Step(c, st, st')
      invariant Sound(c, st) && file in st.expanded ==> Sound(c, st') && file in st'.expanded
      invariant c.options.maxDepth.None? ==> forall j :: 0 <= j < k ==> ImportDone(c, st'.reasons, imports[j], file)
    {
      var before := st';
      st' := ProcessImport(c, before, depth, imports[k], file);
      StepTrans(c, st, before, st');
      if c.options.maxDepth.None? {
        ImportsDoneGrow(c, before.reasons, st'.reasons, imports, k, file);
      }
    }
    if c.options.maxDepth.None? {
      ClosedOfImportsDone(c, st'.reasons, file);
    }
  }

  /** Links that persist keep the imports already done done, and one more import done extends the prefix. */
  lemma ImportsDoneGrow(c: Context, a: map<Path, FileReason>, b: map<Path, FileReason>, imports: seq<ImportInfo>, k: int, file: Path)
    requires 0 <= k < |imports|
    requires forall j :: 0 <= j < k ==> ImportDone(c, a, imports[j], file)
    requires forall t, f :: Linked(a, t, f) ==> Linked(b, t, f)
    requires ImportDone(c, b, imports[k], file)
    ensures forall j :: 0 <= j < k + 1 ==> ImportDone(c, b, imports[j], file)
  {
  }

  /** A file whose imports are all done, one by one, is closed. */
  lemma ClosedOfImportsDone(c: Context, reasons: map<Path, FileReason>, file: Path)
    requires forall j :: 0 <= j < |c.importsOf(file)| ==> ImportDone(c, reasons, c.importsOf(file)[j], file)
    ensures Closed(c, reasons, file)
  {
  }

  /**
    `_process_import`: resolve, warn when nothing is found, emit the target, then
    look for submodules named by a `from` import. The source's three emitting
    branches are one call here: the target is `PrimaryFile` and its label is
    `TargetKind`, which is `Package` in the directory and `__init__.py` branches.
  */
  method ProcessImport(c: Context, st: TraceState, depth: int, info: ImportInfo, from: Path) returns (st': TraceState)
    requires Valid(c, st)
    ensures Step(c, st, st')
    ensures c.resolve(info, from).None? ==>
      st' == st.(warnings := st.warnings + [UnresolvedWarning(info, from)])
    ensures !TooDeep(c, depth) ==> ImportDone(c, st'.reasons, info, from)
    ensures (&& c.resolve(info, from).Some? && !TooDeep(c, depth)
             && PrimaryFile(c.fs, c.resolve(info, from).value).Some?) ==>
      var t := PrimaryFile(c.fs, c.resolve(info, from).value).value;
      t in st'.reasons && (t !in st.reasons ==> st'.reasons[t].kind == TargetKind(t) && st'.reasons[t].moduleName == Some(info.moduleName))
    ensures (&& c.resolve(info, from).Some? && PrimaryFile(c.fs, c.resolve(info, from).value).None?
             && !(info.isFromImport && |info.names| > 0)) ==> st' == st
    ensures Sound(c, st) && from in st.expanded && info in c.importsOf(from) ==> Sound(c, st')
    decreases c.fs.Keys - st.processed, 8
  {
    var resolved := c.resolve(info, from);
    if resolved.None? {
      WarnStep(c, st, UnresolvedWarning(info, from));
      if Sound(c, st) && from in st.expanded && info in c.importsOf(from) {
        WarnSound(c, st, info, from);
      }
      return st.(warnings := st.warnings + [UnresolvedWarning(info, from)]);
    }
    st' := ProcessResolved(c, st, depth, info, from, resolved.value);
  }

  /** The part of `_process_import` after a successful resolution: the primary file, then the names of a `from` import. */
  method ProcessResolved(c: Context, st: TraceState, depth: int, info: ImportInfo, from: Path, r: Path) returns (st': TraceState)
    requires Valid(c, st) && c.resolve(info, from) == Some(r)
    ensures Step(c, st, st')
    ensures !TooDeep(c, depth) ==> ImportDone(c, st'.reasons, info, from)
    ensures !TooDeep(c, depth) && PrimaryFile(c.fs, r).Some? ==>
      var t := PrimaryFile(c.fs, r).value;
      t in st'.reasons && (t !in st.reasons ==> st'.reasons[t].kind == TargetKind(t) && st'.reasons[t].moduleName == Some(info.moduleName))
    ensures PrimaryFile(c.fs, r).None? && !(info.isFromImport && |info.names| > 0) ==> st' == st
    ensures Sound(c, st) && from in st.expanded && info in c.importsOf(from) ==> Sound(c, st')
    decreases c.fs.Keys - st.processed, 7
  {
    var st1 := EmitPrimary(c, st, depth, info, from, r);
    st' := st1;
    if info.isFromImport && |info.names| > 0 {
      st' := ResolveFromImports(c, st1, depth, info, r, from);
      StepTrans(c, st, st1, st');
    }
    if !TooDeep(c, depth) {
      ImportDoneOf(c, st'.reasons, info, from, r);
    }
  }

  /** Emits the primary file of a resolved import, if it has one, with the importing file as parent. */
  method EmitPrimary(c: Context, st: TraceState, depth: int, info: ImportInfo, from: Path, r: Path) returns (st': TraceState)
    requires Valid(c, st) && c.resolve(info, from) == Some(r)
    ensures Step(c, st, st')
    ensures !TooDeep(c, depth) && PrimaryFile(c.fs, r).Some? ==>
      var t := PrimaryFile(c.fs, r).value;
      Linked(st'.reasons, t, from) && (t !in st.reasons ==> st'.reasons[t].kind == TargetKind(t) && st'.reasons[t].moduleName == Some(info.moduleName))
    ensures PrimaryFile(c.fs, r).None? ==> st' == st
    ensures Sound(c, st) && from in st.expanded && info in c.importsOf(from) ==> Sound(c, st') && from in st'.expanded
    decreases c.fs.Keys - st.processed, 6
  {
    var target := PrimaryFile(c.fs, r);
    if target.None? {
      StepRefl(c, st);
      return st;
    }
    if info in c.importsOf(from) {
      ImportTargetIsEdge(c, info, from, target.value);
    }
    st' := EmitFile(c, st, depth, target.value, TargetKind(target.value), Some(from), Some(info.moduleName));
    GrowsKeeps(c, st, st');
  }

  /** Recording a warning is a step. */
  lemma WarnStep(c: Context, st: TraceState, w: string)
    requires Valid(c, st)
    ensures Step(c, st, st.(warnings := st.warnings + [w]))
  {
  }

  /** Warning about an unresolved import of an expanded file keeps the trace sound. */
  lemma WarnSound(c: Context, st: TraceState, info: ImportInfo, from: Path)
    requires Sound(c, st) && from in st.expanded && info in c.importsOf(from) && c.resolve(info, from).None?
    ensures Sound(c, st.(warnings := st.warnings + [UnresolvedWarning(info, from)]))
  {
    var st' := st.(warnings := st.warnings + [UnresolvedWarning(info, from)]);
    forall w | w in st'.warnings
      ensures WarningOk(c, st'.expanded, w)
    {
      if w !in st.warnings {
        assert w == UnresolvedWarning(info, from);
      }
    }
  }

  /** An import is done once its primary file and the submodules it names are linked. */
  lemma ImportDoneOf(c: Context, reasons: map<Path, FileReason>, info: ImportInfo, from: Path, r: Path)
    requires c.resolve(info, from) == Some(r)
    requires PrimaryFile(c.fs, r).Some? ==> Linked(reasons, PrimaryFile(c.fs, r).value, from)
    requires info.isFromImport && |info.names| > 0 && PackageDirOf(c.fs, r).Some? ==>
      forall t :: t in SubmoduleTargets(c.fs, PackageDirOf(c.fs, r).value, info.names) ==> Linked(reasons, t, from)
    ensures ImportDone(c, reasons, info, from)
  {
  }

  /** The submodule file and the subpackage marker one imported name may stand for, each recorded when it exists. */
  ghost predicate NameDone(fs: FileSystem, reasons: map<Path, FileReason>, dir: Path, name: string, from: Path) {
    && (IsFile(fs, SubmoduleFile(dir, name)) ==> Linked(reasons, SubmoduleFile(dir, name), from))
    && (IsFile(fs, SubpackageInit(dir, name)) ==> Linked(reasons, SubpackageInit(dir, name), from))
  }

  /** Names done one by one make every submodule target done. */
  lemma NamesDone(fs: FileSystem, reasons: map<Path, FileReason>, dir: Path, names: seq<string>, from: Path)
    requires forall j :: 0 <= j < |names| && names[j] != "*" ==> NameDone(fs, reasons, dir, names[j], from)
    ensures forall t :: t in SubmoduleTargets(fs, dir, names) ==> Linked(reasons, t, from)
  {
    forall t | t in SubmoduleTargets(fs, dir, names)
      ensures Linked(reasons, t, from)
    {
      var n :| n in names && n != "*" && (t == SubmoduleFile(dir, n) || t == SubpackageInit(dir, n)) && IsFile(fs, t);
      var j :| 0 <= j < |names| && names[j] == n;
      assert NameDone(fs, reasons, dir, names[j], from);
    }
  }

  /** Links that persist keep the names already done done, and one more name done extends the prefix. */
  lemma NamesDoneGrow(fs: FileSystem, a: map<Path, FileReason>, b: map<Path, FileReason>, dir: Path, names: seq<string>, k: int, from: Path)
    requires 0 <= k < |names|
    requires forall j :: 0 <= j < k && names[j] != "*" ==> NameDone(fs, a, dir, names[j], from)
    requires forall t, f :: Linked(a, t, f) ==> Linked(b, t, f)
    requires NameDone(fs, b, dir, names[k], from)
    ensures forall j :: 0 <= j < k + 1 && names[j] != "*" ==> NameDone(fs, b, dir, names[j], from)
  {
    forall j | 0 <= j < k && names[j] != "*"
      ensures NameDone(fs, b, dir, names[j], from)
    {
      var sub, init := SubmoduleFile(dir, names[j]), SubpackageInit(dir, names[j]);
      assert NameDone(fs, a, dir, names[j], from);
      if IsFile(fs, sub) {
        assert Linked(a, sub, from);
      }
      if IsFile(fs, init) {
        assert Linked(a, init, from);
      }
    }
  }

  /** When a `from` import names no existing submodule or subpackage, no name stands for a file. */
  lemma NoTargetsNoFiles(fs: FileSystem, dir: Path, names: seq<string>, k: int)
    requires 0 <= k < |names| && names[k] != "*"
    ensures SubmoduleTargets(fs, dir, names) == {} ==>
      !IsFile(fs, SubmoduleFile(dir, names[k])) && !IsFile(fs, SubpackageInit(dir, names[k]))
  {
    if IsFile(fs, SubmoduleFile(dir, names[k])) {
      assert SubmoduleFile(dir, names[k]) in SubmoduleTargets(fs, dir, names);
    }
    if IsFile(fs, SubpackageInit(dir, names[k])) {
      assert SubpackageInit(dir, names[k]) in SubmoduleTargets(fs, dir, names);
    }
  }

  /** The files one imported name stands for are import edges of the importing file. */
  lemma SubmoduleIsEdge(c: Context, info: ImportInfo, from: Path, dir: Path, name: string)
    requires info in c.importsOf(from) && info.isFromImport && name in info.names && name != "*"
    requires c.resolve(info, from).Some? && PackageDirOf(c.fs, c.resolve(info, from).value) == Some(dir)
    ensures IsFile(c.fs, SubmoduleFile(dir, name)) ==> Edge(c, from, SubmoduleFile(dir, name))
    ensures IsFile(c.fs, SubpackageInit(dir, name)) ==> Edge(c, from, SubpackageInit(dir, name))
  {
    var subs := SubmoduleTargets(c.fs, dir, info.names);
    assert subs <= ImportTargets(c, info, from);
    if IsFile(c.fs, SubmoduleFile(dir, name)) {
      assert SubmoduleFile(dir, name) in subs;
      ImportTargetIsEdge(c, info, from, SubmoduleFile(dir, name));
    }
    if IsFile(c.fs, SubpackageInit(dir, name)) {
      assert SubpackageInit(dir, name) in subs;
      ImportTargetIsEdge(c, info, from, SubpackageInit(dir, name));
    }
  }

  /** One pass of the loop of `_resolve_from_imports`, for a name other than `*`: the submodule file, then the subpackage. */
  method EmitSubmodules(c: Context, st: TraceState, depth: int, info: ImportInfo, dir: Path, name: string, from: Path)
    returns (st': TraceState)
    requires Valid(c, st) && name != "*"
    ensures Step(c, st, st')
    ensures !TooDeep(c, depth) ==> NameDone(c.fs, st'.reasons, dir, name, from)
    ensures !IsFile(c.fs, SubmoduleFile(dir, name)) && !IsFile(c.fs, SubpackageInit(dir, name)) ==> st' == st
    ensures !TooDeep(c, depth) && IsFile(c.fs, SubmoduleFile(dir, name)) && SubmoduleFile(dir, name) !in st.reasons ==>
      && st'.reasons[SubmoduleFile(dir, name)].kind == Import
      && st'.reasons[SubmoduleFile(dir, name)].moduleName == Some(SubmoduleName(info.moduleName, name))
    ensures !TooDeep(c, depth) && !IsFile(c.fs, SubmoduleFile(dir, name)) && IsFile(c.fs, SubpackageInit(dir, name))
            && SubpackageInit(dir, name) !in st.reasons ==>
      && st'.reasons[SubpackageInit(dir, name)].kind == Package
      && st'.reasons[SubpackageInit(dir, name)].moduleName == Some(SubmoduleName(info.moduleName, name))
    ensures (&& Sound(c, st) && from in st.expanded && info in c.importsOf(from) && info.isFromImport && name in info.names
             && c.resolve(info, from).Some? && PackageDirOf(c.fs, c.resolve(info, from).value) == Some(dir)) ==>
      Sound(c, st') && from in st'.expanded
    decreases c.fs.Keys - st.processed, 3
  {
    ghost var justified := (&& Sound(c, st) && from in st.expanded && info in c.importsOf(from) && info.isFromImport && name in info.names
                            && c.resolve(info, from).Some? && PackageDirOf(c.fs, c.resolve(info, from).value) == Some(dir));
    if justified {
      SubmoduleIsEdge(c, info, from, dir, name);
    }
    var moduleName := SubmoduleName(info.moduleName, name);
    var mid := EmitIfFile(c, st, depth, SubmoduleFile(dir, name), Import, from, moduleName);
    st' := EmitIfFile(c, mid, depth, SubpackageInit(dir, name), Package, from, moduleName);
    StepTrans(c, st, mid, st');
  }

  /** Emits `t`, with `from` as parent, when it is an existing file; otherwise changes nothing. */
  method EmitIfFile(c: Context, st: TraceState, depth: int, t: Path, kind: FileType, from: Path, moduleName: string)
    returns (st': TraceState)
    requires Valid(c, st) && !kind.Initial?
    ensures Step(c, st, st')
    ensures !TooDeep(c, depth) && IsFile(c.fs, t) ==> Linked(st'.reasons, t, from)
    ensures forall u, f :: Linked(st.reasons, u, f) ==> Linked(st'.reasons, u, f)
    ensures !IsFile(c.fs, t) ==> st' == st
    ensures !TooDeep(c, depth) && IsFile(c.fs, t) && t !in st.reasons ==>
      st'.reasons[t].kind == kind && st'.reasons[t].moduleName == Some(moduleName)
    ensures Sound(c, st) && from in st.expanded && (IsFile(c.fs, t) ==> Edge(c, from, t)) ==> Sound(c, st') && from in st'.expanded
    decreases c.fs.Keys - st.processed, 2
  {
    if IsFile(c.fs, t) {
      st' := EmitFile(c, st, depth, t, kind, Some(from), Some(moduleName));
      GrowsKeeps(c, st, st');
    } else {
      StepRefl(c, st);
      st' := st;
    }
  }

  /** `_resolve_from_imports`: in a package, each imported name other than `*` may be a submodule file or a subpackage. */
  method ResolveFromImports(c: Context, st: TraceState, depth: int, info: ImportInfo, resolvedBase: Path, from: Path) returns (st': TraceState)
    requires Valid(c, st)
    ensures Step(c, st, st')
    ensures PackageDirOf(c.fs, resolvedBase).None? ==> st' == st
    ensures PackageDirOf(c.fs, resolvedBase).Some? && SubmoduleTargets(c.fs, PackageDirOf(c.fs, resolvedBase).value, info.names) == {} ==> st' == st
    ensures !TooDeep(c, depth) && PackageDirOf(c.fs, resolvedBase).Some? ==>
      forall t :: t in SubmoduleTargets(c.fs, PackageDirOf(c.fs, resolvedBase).value, info.names) ==> Linked(st'.reasons, t, from)
    ensures (&& Sound(c, st) && from in st.expanded && info in c.importsOf(from) && info.isFromImport
             && c.resolve(info, from) == Some(resolvedBase)) ==> Sound(c, st')
    decreases c.fs.Keys - st.processed, 5
  {
    var dir: Path;
    if IsFile(c.fs, resolvedBase) {
      if BaseName(resolvedBase) == PackageMarker {
        dir := Parent(resolvedBase);
      } else {
        StepRefl(c, st);
        return st;
      }
    } else {
      dir := resolvedBase;
    }
    assert PackageDirOf(c.fs, resolvedBase) == Some(dir);
    st' := EmitNames(c, st, depth, info, dir, from);
  }

  /** The loop of `_resolve_from_imports` over the imported names of a package `dir`. */
  method EmitNames(c: Context, st: TraceState, depth: int, info: ImportInfo, dir: Path, from: Path) returns (st': TraceState)
    requires Valid(c, st)
    ensures Step(c, st, st')
    ensures SubmoduleTargets(c.fs, dir, info.names) == {} ==> st' == st
    ensures !TooDeep(c, depth) ==> forall t :: t in SubmoduleTargets(c.fs, dir, info.names) ==> Linked(st'.reasons, t, from)
    ensures (&& Sound(c, st) && from in st.expanded && info in c.importsOf(from) && info.isFromImport
             && c.resolve(info, from).Some? && PackageDirOf(c.fs, c.resolve(info, from).value) == Some(dir)) ==> Sound(c, st')
    decreases c.fs.Keys - st.processed, 4
  {
    StepRefl(c, st);
    ghost var justified := (&& Sound(c, st) && from in st.expanded && info in c.importsOf(from) && info.isFromImport
                            && c.resolve(info, from).Some? && PackageDirOf(c.fs, c.resolve(info, from).value) == Some(dir));
    st' := st;
    for k := 0 to |info.names|
      invariant Step(c, st, st')
      invariant justified ==> Sound(c, st') && from in st'.expanded
      invariant SubmoduleTargets(c.fs, dir, info.names) == {} ==> st' == st
      invariant !TooDeep(c, depth) ==>
        forall j :: 0 <= j < k && info.names[j] != "*" ==> NameDone(c.fs, st'.reasons, dir, info.names[j], from)
    {
      var name := info.names[k];
      if name == "*" {
        continue;
      }
      var before := st';
      NoTargetsNoFiles(c.fs, dir, info.names, k);
      st' := EmitSubmodules(c, before, depth, info, dir, name, from);
      StepTrans(c, st, before, st');
      if !TooDeep(c, depth) {
        NamesDoneGrow(c.fs, before.reasons, st'.reasons, dir, info.names, k, from);
      }
    }
    if !TooDeep(c, depth) {
      NamesDone(c.fs, st'.reasons, dir, info.names, from);
    }
  }

  // ---------------------------------------------------------------------------
  // Entry point

  /** The base directory of a trace: the option when given (made absolute against the working directory), else the working directory. */
  function BaseDir(options: TraceOptions, env: Environment): Path {
    match options.base
    case None => env.cwd
    case Some(arg) => Absolutize(arg, env.cwd)
  }

  /** The context of a trace, with the resolver and the import extraction of the other modules bound in. */
  function TraceContext(fs: FileSystem, options: TraceOptions, env: Environment, matches: (string, string) -> bool, searchPaths: seq<Path>): (c: Context)
    ensures c.fs == fs && c.options == options && c.env == env && c.searchPaths == searchPaths
    ensures forall info, from :: c.resolve(info, from) == ResolveImport(fs, info, from, searchPaths)
    ensures forall f :: c.importsOf(f) == ImportsOf(fs, options, f)
  {
    Context(fs, options, env, matches, searchPaths,
            (info, from) => ResolveImport(fs, info, from, searchPaths),
            f => ImportsOf(fs, options, f))
  }

  /** What the entry loop keeps after the first `k` entries. */
  ghost predicate EntriesDone(c: Context, st: TraceState, entries: seq<PathArg>, k: int)
    requires 0 <= k <= |entries|
  {
    && Valid(c, st) && Sound(c, st)
    && (c.options.maxDepth.None? || c.options.maxDepth.value >= 0 ==>
          forall j :: 0 <= j < k && IsFile(c.fs, Absolutize(entries[j], c.env.cwd)) ==> Absolutize(entries[j], c.env.cwd) in st.reasons)
    && (forall p :: p in st.reasons && st.reasons[p].kind.Initial? ==>
          IsFile(c.fs, p) && exists j :: 0 <= j < k && Absolutize(entries[j], c.env.cwd) == p)
    && (c.options.maxDepth.None? ==> forall f :: f in st.expanded ==> Closed(c, st.reasons, f))
  }

  /** Emitting entry `k` as an initial file extends the loop's facts to `k + 1`. */
  lemma EntryStep(c: Context, st: TraceState, st': TraceState, entries: seq<PathArg>, k: int)
    requires 0 <= k < |entries| && EntriesDone(c, st, entries, k)
    requires IsFile(c.fs, Absolutize(entries[k], c.env.cwd))
    requires Valid(c, st') && Sound(c, st') && Grows(st, st')
    requires FreshNotInitial(st, st', {Absolutize(entries[k], c.env.cwd)})
    requires c.options.maxDepth.None? ==> NewlyClosed(c, st, st')
    requires !TooDeep(c, 0) ==> Absolutize(entries[k], c.env.cwd) in st'.reasons
    ensures EntriesDone(c, st', entries, k + 1)
  {
    GrowsKeeps(c, st, st');
    var path := Absolutize(entries[k], c.env.cwd);
    forall p | p in st'.reasons && st'.reasons[p].kind.Initial?
      ensures IsFile(c.fs, p) && exists j :: 0 <= j < k + 1 && Absolutize(entries[j], c.env.cwd) == p
    {
      if p != path {
        assert p in st.reasons;
      }
    }
  }

  /** The loop of `trace`: each entry that is a file is emitted as an initial file, in order. */
  method EmitEntries(c: Context, entries: seq<PathArg>) returns (st: TraceState)
    ensures EntriesDone(c, st, entries, |entries|)
  {
    st := InitialState;
    for k := 0 to |entries|
      invariant EntriesDone(c, st, entries, k)
    {
      var path := Absolutize(entries[k], c.env.cwd);
      if IsFile(c.fs, path) {
        var before := st;
        st := EmitFile(c, before, 0, path, Initial, None, None);
        EntryStep(c, before, st, entries, k);
      }
    }
  }

  /** The resolver bound into a trace answers only with existing paths. */
  lemma TraceContextResolvesIntoFs(fs: FileSystem, options: TraceOptions, env: Environment, matches: (string, string) -> bool, searchPaths: seq<Path>)
    ensures ResolvesIntoFs(TraceContext(fs, options, env, matches, searchPaths))
  {
    var c := TraceContext(fs, options, env, matches, searchPaths);
    forall info, from | c.resolve(info, from).Some?
      ensures c.resolve(info, from).value in fs
    {
      assert c.resolve(info, from) == ResolveImport(fs, info, from, searchPaths);
    }
  }

  /** Every recorded path is an existing file: an initial file was checked, and an import target was found by the resolver. */
  lemma RecordedAreFiles(c: Context, st: TraceState)
    requires ResolvesIntoFs(c) && Sound(c, st)
    requires forall p :: p in st.reasons && st.reasons[p].kind.Initial? ==> IsFile(c.fs, p)
    ensures forall p :: p in st.reasons ==> IsFile(c.fs, p)
  {
    forall p | p in st.reasons
      ensures IsFile(c.fs, p)
    {
      if st.reasons[p].parents != {} {
        var q :| q in st.reasons[p].parents;
        TargetsAreFiles(c, q, p);
      }
    }
  }

  /** When every expanded file is closed, every import edge out of an expanded file is recorded. */
  lemma AllEdgesRecorded(c: Context, st: TraceState)
    requires forall f :: f in st.expanded ==> Closed(c, st.reasons, f)
    ensures forall f, t :: f in st.expanded && Edge(c, f, t) ==> Linked(st.reasons, t, f)
  {
    forall f, t | f in st.expanded && Edge(c, f, t)
      ensures Linked(st.reasons, t, f)
    {
      ClosedEdges(c, st.reasons, f, t);
    }
  }

  /** What holds at the end of a trace: the recorded files, the parent links and the warnings are as described below. */
  ghost predicate Outcome(c: Context, entries: seq<PathArg>, fileList: set<Path>, reasons: map<Path, FileReason>,
                          warnings: seq<string>, expanded: seq<Path>) {
    && RecordedFiles(c, entries, fileList, reasons, expanded)
    && RecordedLinks(c, reasons, expanded)
    && WarningsJustified(c, warnings, expanded)
  }

  /**
    Every recorded path is an existing file; the file list is the recorded files
    the policy includes; the expanded files are the listed Python files, once
    each; every entry that is a file is recorded unless the depth limit is
    negative, and only entries are initial.
  */
  ghost predicate RecordedFiles(c: Context, entries: seq<PathArg>, fileList: set<Path>, reasons: map<Path, FileReason>, expanded: seq<Path>) {
    && (forall p :: p in reasons ==> IsFile(c.fs, p))
    && (forall p :: p in fileList <==> p in reasons && !reasons[p].ignored)
    && (forall p :: p in reasons ==> (p in fileList <==> Included(c, p)))
    && NoDup(expanded)
    && (forall q :: q in expanded <==> q in fileList && IsPyFile(c.fs, q))
    && (c.options.maxDepth.None? || c.options.maxDepth.value >= 0 ==>
          forall k :: 0 <= k < |entries| && IsFile(c.fs, Absolutize(entries[k], c.env.cwd)) ==> Absolutize(entries[k], c.env.cwd) in reasons)
    && (forall p :: p in reasons && reasons[p].kind.Initial? ==>
          exists k :: 0 <= k < |entries| && Absolutize(entries[k], c.env.cwd) == p)
  }

  /**
    Only initial files lack parents; every parent link is an import edge out of
    an expanded file; without a depth limit every such edge is recorded.
  */
  ghost predicate RecordedLinks(c: Context, reasons: map<Path, FileReason>, expanded: seq<Path>) {
    && (forall p :: p in reasons && reasons[p].parents == {} ==> reasons[p].kind.Initial?)
    && (forall p, q :: p in reasons && q in reasons[p].parents ==> q in expanded && Edge(c, q, p))
    && (c.options.maxDepth.None? ==> forall f, t :: f in expanded && Edge(c, f, t) ==> Linked(reasons, t, f))
  }

  /** The facts the entry loop leaves, for a resolver that stays inside the filesystem, are the outcome of the trace. */
  lemma FinalOutcome(c: Context, entries: seq<PathArg>, st: TraceState)
    requires ResolvesIntoFs(c) && EntriesDone(c, st, entries, |entries|)
    ensures Outcome(c, entries, st.fileList, st.reasons, st.warnings, st.expanded)
  {
    FinalFiles(c, entries, st);
    FinalLinks(c, entries, st);
  }

  lemma FinalFiles(c: Context, entries: seq<PathArg>, st: TraceState)
    requires ResolvesIntoFs(c) && EntriesDone(c, st, entries, |entries|)
    ensures RecordedFiles(c, entries, st.fileList, st.reasons, st.expanded)
  {
    RecordedAreFiles(c, st);
  }

  lemma FinalLinks(c: Context, entries: seq<PathArg>, st: TraceState)
    requires EntriesDone(c, st, entries, |entries|)
    ensures RecordedLinks(c, st.reasons, st.expanded)
  {
    if c.options.maxDepth.None? {
      AllEdgesRecorded(c, st);
    }
  }

  /** The entry loop run on a context whose resolver stays inside the filesystem. */
  method TraceIn(c: Context, entries: seq<PathArg>) returns (st: TraceState)
    requires ResolvesIntoFs(c)
    ensures Outcome(c, entries, st.fileList, st.reasons, st.warnings, st.expanded)
  {
    st := EmitEntries(c, entries);
    FinalOutcome(c, entries, st);
  }

  /** `python_file_trace` on a fresh `Tracer`. `searchPaths` and `expanded` expose the tracer's search list and the files whose imports were read. */
  method Trace(fs: FileSystem, entries: seq<PathArg>, options: TraceOptions, env: Environment, matches: (string, string) -> bool)
    returns (result: TraceResult, searchPaths: seq<Path>, expanded: seq<Path>)
    ensures result.base == BaseDir(options, env)
    ensures SearchList(fs, result.base, env.sysPath, searchPaths)
    ensures Outcome(TraceContext(fs, options, env, matches, searchPaths), entries,
                    result.fileList, result.reasons, result.warnings, expanded)
  {
    var base := BaseDir(options, env);
    searchPaths := BuildSearchPaths(fs, base, env.sysPath);
    var c := TraceContext(fs, options, env, matches, searchPaths);
    TraceContextResolvesIntoFs(fs, options, env, matches, searchPaths);
    var st := TraceIn(c, entries);
    result := TraceResult(st.fileList, st.reasons, st.warnings, base);
    expanded := st.expanded;
  }
}

=== FILE: types.dfy ===
/** The records the tracer produces and consumes (`types.py`). */
module Types {
  import opened Wrappers
  import opened Paths

  /** Why a file is in the trace. `Data` is declared but never produced by the tracer. */
  datatype FileType = Initial | Import | Package | Data

  /**
    One traced file: how it entered, which files import it, whether the
    inclusion policy turned it away, and the module name it was imported as.
    The source keys parents by `str(path)`; canonical paths render injectively
    (`Paths.RenderRoundTrip`), so paths stand in for their strings here.
  */
  datatype FileReason = FileReason(kind: FileType, parents: set<Path>, ignored: bool, moduleName: Option<string>)
  {
    /** `add_parent` */
    function AddParent(parent: Path): (r: FileReason)
      ensures parent in r.parents
      ensures r.parents - {parent} == parents - {parent}
      ensures r.kind == kind && r.ignored == ignored && r.moduleName == moduleName
    {
      this.(parents := parents + {parent})
    }
  }

  /** A reason as first recorded: no parents yet. */
  function NewReason(kind: FileType, ignored: bool, moduleName: Option<string>): (r: FileReason)
    ensures r.parents == {}
  {
    FileReason(kind, {}, ignored, moduleName)
  }

  /** Adding parents is order-independent and adding one twice changes nothing. */
  lemma AddParentCommutes(r: FileReason, a: Path, b: Path)
    ensures r.AddParent(a).AddParent(b) == r.AddParent(b).AddParent(a)
    ensures r.AddParent(a).AddParent(a) == r.AddParent(a)
  {
  }

  /** Adding a parent that is already recorded is a no-op. */
  lemma AddKnownParent(r: FileReason, a: Path)
    requires a in r.parents
    ensures r.AddParent(a) == r
  {
    assert r.parents + {a} == r.parents;
  }

  /** `TraceOptions`; `base` is `None` when the working directory is to be used. */
  datatype TraceOptions = TraceOptions(
    base: Option<PathArg>,
    ignore: seq<string>,
    includeStdlib: bool,
    includeSitePackages: bool,
    followDynamicImports: bool,
    maxDepth: Option<int>)

  /** `TraceOptions()` with every field at its default. */
  const DefaultOptions := TraceOptions(None, [], false, true, false, None)

  /** `TraceResult`: the traced files, why each is there, the warnings, and the base directory. */
  datatype TraceResult = TraceResult(fileList: set<Path>, reasons: map<Path, FileReason>, warnings: seq<string>, base: Path)

  /** One entry of `relative_file_list`: the path relative to `base` when it lies under it, else the absolute string. */
  function RelativeForm(p: Path, base: Path): string {
    if IsAncestor(base, p) then RenderRelative(p[|base|..]) else Render(p)
  }

  /** `relative_file_list` */
  function RelativeFileList(r: TraceResult): (out: set<string>)
    ensures forall p :: p in r.fileList ==> RelativeForm(p, r.base) in out
    ensures forall s :: s in out ==> exists p :: p in r.fileList && RelativeForm(p, r.base) == s
  {
    set p | p in r.fileList :: RelativeForm(p, r.base)
  }

  /** Reads an entry of the relative file list back: absolute strings start with `/`, relative ones are taken against `base`. */
  function ReadBack(s: string, base: Path): Path {
    if |s| > 0 && s[0] == '/' then ParseAbsolute(s) else base + ParseRelative(s)
  }

  /** Each entry of the relative file list names its file unambiguously. */
  lemma RelativeFormRoundTrip(p: Path, base: Path)
    requires ValidPath(p)
    ensures ReadBack(RelativeForm(p, base), base) == p
  {
    if IsAncestor(base, p) {
      var rest := p[|base|..];
      assert ValidPath(rest) by {
        forall k | 0 <= k < |rest|
          ensures ValidComponent(rest[k])
        {
          assert rest[k] == p[|base| + k];
        }
      }
      RenderRelativeRoundTrip(rest);
      assert base + rest == p;
    } else {
      RenderRoundTrip(p);
    }
  }

  /** Different canonical files never share an entry of the relative file list. */
  lemma RelativeFormInjective(p: Path, q: Path, base: Path)
    requires ValidPath(p) && ValidPath(q) && p != q
    ensures RelativeForm(p, base) != RelativeForm(q, base)
  {
    RelativeFormRoundTrip(p, base);
    RelativeFormRoundTrip(q, base);
  }

  /** The relative list never has more entries than the file list, and exactly as many for canonical paths. */
  lemma {:induction false} RelativeListSize(files: set<Path>, base: Path)
    ensures |set p | p in files :: RelativeForm(p, base)| <= |files|
    ensures (forall p :: p in files ==> ValidPath(p)) ==> |set p | p in files :: RelativeForm(p, base)| == |files|
    decreases |files|
  {
    if files != {} {
      var x :| x in files;
      var rest := files - {x};
      RelativeListSize(rest, base);
      var img := set p | p in files :: RelativeForm(p, base);
      var imgRest := set p | p in rest :: RelativeForm(p, base);
      assert img == imgRest + {RelativeForm(x, base)};
      if forall p :: p in files ==> ValidPath(p) {
        forall y | y in rest
          ensures RelativeForm(y, base) != RelativeForm(x, base)
        {
          RelativeFormInjective(y, x, base);
        }
        assert RelativeForm(x, base) !in imgRest;
      }
    }
  }

  /** `relative_file_list` of a result whose files are canonical has one entry per traced file. */
  lemma RelativeFileListSize(r: TraceResult)
    requires forall p :: p in r.fileList ==> ValidPath(p)
    ensures |RelativeFileList(r)| == |r.fileList|
  {
    RelativeListSize(r.fileList, r.base);
  }
}

=== FILE: wrappers.dfy ===
/** Failure-compatible helper datatypes shared by the whole model. */
module Wrappers {

  /** Python's `X | None`. */
  datatype Option<+T> = None | Some(value: T) {

    /** The value, or `default` when absent (Python's `x or default` for values that are never falsy). */
    function GetOr(default: T): T {
      match this
      case Some(v) => v
      case None => default
    }
  }

  /** The outcome of a Python call that may raise `ValueError` instead of returning. */
  datatype Attempt<+T> = Returned(value: T) | RaisedValueError
}
